=== FILE: README.md ===
# vkmm allocation strategies in Dafny

A functional model of the allocation-strategy layer of the `demo.vkmm` Vulkan memory manager, with the properties each allocator and the manager keep, stated as contracts and proved.

What is modelled:
- **Memory types.** The usage tags (`FREE`, `IMAGE`, `BUFFER`, `UNKNOWN`) and their conflict relation, which decides when buffer/image granularity padding is needed (`MemoryTypes`).
- **Alignment.** Round-up-to-multiple arithmetic, and the round-down the stack allocator performs with a bit mask (`Alignment`).
- **Mapping.** The map/unmap reference count that four of the heaps repeat verbatim (`Mapping`).
- **Buddy heap** (`Buddy`).
  - An inductive tree; a block is identified by its path from the root (which differs from the source's node identity only on a repeated free, see "## Left out").
  - Allocation is a depth-first, left-before-right search that halves a free leaf while the half still holds the request and is at least `minSize`.
  - Coalescing (`reclaim`) is lazy: it runs before every allocation and every emptiness test.
- **Slab heap** (`Slab`).
  - Size classes are laid out contiguously; a block is identified by its class index and slot index.
  - Allocation is first-fit over the classes and tries only the first FREE slot of each class.
  - `free` resets the slot.
- **Linear heap** (`Linear`). A bump allocator that pads a block's size to the granularity when its usage conflicts with the previous block's.
- **Stack heap** (`Stack`). A bump-down allocator with an eight-slot frame array for `push`/`pop`.
- **Unique heap** (`Unique`). One native memory object per allocation, recorded in a set keyed by native handle (blocks are equal exactly when their handles are).
- **Manager** (`Manager`).
  - Picks the memory type and routes by size: large requests to the unique heap, small ones to a slab pool, the rest to a buddy pool.
  - Image and buffer requests go to separate heaps.
  - Within a pool, heaps are tried first-fit and the pool grows by one heap when all of them fail.
  - Garbage collection releases empty pool heaps; `free` tears everything down.

Every operation is a pure function from the heap (or manager) state to the new state and a result. Every operation returns the new state even when it fails, because the source changes state on some failing paths:
- a failing buddy malloc has still reclaimed the tree and aligned the free leaves it visited;
- a failing slab malloc has still aligned the first FREE slot of each class it tried.

Errors (`OutOfMemory`, `UnsupportedMemoryType`, and the array-index fault of an overflowing stack `push`) are values of the `Result` datatype.

Native memory objects are opaque handles (natural numbers):
- a heap constructor takes its handle as a parameter;
- the manager draws the handle of each new memory object from a counter in its state;
- operations that release memory objects return the set or sequence of handles they release.

Where the code behaves in a way its naming or its neighbours would not suggest, the model follows the code:
- **Buddy split size.** The buddy search halves the block's aligned usable size (`getSize() / 2`), not the node's size. When a node's offset is not aligned, its two halves therefore do not cover its whole range. Well-formedness asks only `2 * half <= size`.
- **Linear bound test.** The linear out-of-memory test is the literal `pageSize + alignedSize > pointer + size`, not a bound of the pointer by the capacity.
- **Stack allocation.** The stack allocator subtracts the unpadded size and then masks the pointer, with no check for underflow.
- **Unique block free.** Freeing a unique block releases its native memory object, and the block stays in the heap's set.

## Model

| member | source | states |
|---|---|---|
| MemoryTypes.ConflictTable | src/main/java/demo/vkmm/MemoryType.java:9-17 | UNKNOWN conflicts with every tag on either side; no other tag conflicts with itself; FREE conflicts with nothing but UNKNOWN; IMAGE and BUFFER conflict both ways |
| MemoryTypes.ConflictsSymmetric | src/main/java/demo/vkmm/MemoryType.java:9-17 | `a.conflicts(b) == b.conflicts(a)` |
| MemoryTypes.ConflictsMeaning | src/main/java/demo/vkmm/MemoryType.java:9-17 | two tags conflict exactly when one is UNKNOWN or they are the two different usage classes |
| Alignment.AlignUp | src/main/java/demo/vkmm/MemoryAllocator.java:17-19 | for `a >= 0` and `b > 0` the result is a multiple of `b` with `a <= r < a + b` |
| Alignment.AlignUpLeast | src/main/java/demo/vkmm/MemoryAllocator.java:17-19 | no multiple of `b` at or above `a` is smaller than `alignUp(a, b)`: it is the least one |
| Alignment.AlignUpOfMultiple | src/main/java/demo/vkmm/MemoryAllocator.java:17-19 | a multiple of `b` is left unchanged, and alignment 1 is the identity |
| Alignment.AlignUpIdempotent | src/main/java/demo/vkmm/MemoryAllocator.java:17-19 | aligning an aligned value changes nothing |
| Alignment.AlignUpMonotone | src/main/java/demo/vkmm/MemoryAllocator.java:17-19 | `a <= a'` implies `alignUp(a, b) <= alignUp(a', b)` |
| Alignment.RoundDown | src/main/java/demo/vkmm/StackMemoryAllocator.java:55 | the rounded pointer is a multiple of `b` in `(x - b, x]`, also for negative `x` |
| Alignment.RoundDownNonneg | src/main/java/demo/vkmm/StackMemoryAllocator.java:55 | rounding a non-negative pointer down never goes below zero |
| Mapping.Map | src/main/java/demo/vkmm/BuddyBlockMemoryAllocator.java:88-103 | the count goes up by one and the mapping is cached; the native map is issued iff none was cached, which on a consistent state is exactly when the count was zero, and consistency is kept |
| Mapping.Unmap | src/main/java/demo/vkmm/BuddyBlockMemoryAllocator.java:105-110 | the count goes down by one; the native unmap is issued iff the count was one, and then the cached mapping is dropped; otherwise the cache is left as it was (also when the count goes negative); consistency is kept while a map is outstanding |
| Mapping.MapThenUnmap | src/main/java/demo/vkmm/SlabMemoryAllocator.java:137-159 | on a consistent state an unmap undoes the map before it, and issues the native unmap exactly when that map issued the native map |
| Mapping.NestedMapping | src/main/java/demo/vkmm/BuddyBlockMemoryAllocator.java:88-110 | `k` nested maps on an unmapped heap issue one native map; the first `k - 1` unmaps issue no native unmap; the last issues exactly one and leaves the heap unmapped |
| Mapping.MapWhileMapped | src/main/java/demo/vkmm/SlabMemoryAllocator.java:137-152 | maps on a heap that is already mapped only increment the count |
| Mapping.UnmapWhilePositive | src/main/java/demo/vkmm/StackMemoryAllocator.java:133-138 | unmaps that leave the count positive never reach the native unmap |
| Mapping.UnmapLast | src/main/java/demo/vkmm/SlabMemoryAllocator.java:154-159 | `k` unmaps from count `k` issue exactly one native unmap and restore the unmapped state |
| Buddy.SubFree | src/main/java/demo/vkmm/BuddyBlockMemoryAllocator.java:158-206 | on a FREE leaf: the offset gets aligned; the result is well formed and all FREE; a block is found iff the aligned size holds the request; the block found is exactly the first fitting leaf of the new subtree in left-to-right order, so a fresh split descends left whenever the left half holds the request; the block is a FREE leaf aligned for the request that holds it; a split's halves are half the aligned size, and each holds the request and is at least `minSize`; the block found is a leaf that cannot be split further (a half would be under the request or `minSize`, or neither half holds the request once aligned) |
| Buddy.Sub | src/main/java/demo/vkmm/BuddyBlockMemoryAllocator.java:141-207 | keeps the node's range and well-formedness; finds a block exactly when the reference left-to-right first-fit search finds a fitting leaf; the path found is exactly the first fitting leaf of the resulting tree in left-to-right order; what it finds is a FREE leaf aligned for the request that holds it and that cannot be split further |
| Buddy.SubFollowsFirstFit | src/main/java/demo/vkmm/BuddyBlockMemoryAllocator.java:141-156 | the block found lies inside the leftmost fitting leaf: left subtrees are searched before right ones |
| Buddy.SubKeepsOccupied | src/main/java/demo/vkmm/BuddyBlockMemoryAllocator.java:141-207 | the search changes no occupied leaf, and splitting free leaves produces only free leaves |
| Buddy.Reclaim | src/main/java/demo/vkmm/BuddyBlockMemoryAllocator.java:128-139 | keeps the range, well-formedness and the occupied leaves; afterwards no split node has two FREE children; an all-free tree becomes a single FREE leaf |
| Buddy.ReclaimIdempotent | src/main/java/demo/vkmm/BuddyBlockMemoryAllocator.java:128-139 | reclaiming twice is reclaiming once |
| Buddy.ReclaimFixesCollapsed | src/main/java/demo/vkmm/BuddyBlockMemoryAllocator.java:128-139 | a tree with no split node over two FREE children is left alone |
| Buddy.Init | src/main/java/demo/vkmm/BuddyBlockMemoryAllocator.java:24-45 | the fresh heap is valid (one leaf covering `[0, totalSize)`) with no occupied leaf |
| Buddy.Malloc | src/main/java/demo/vkmm/BuddyBlockMemoryAllocator.java:48-64 | changes only the tree (handle, memory type, size, `minSize` and mapping stay); keeps the heap valid; succeeds iff a leaf of the reclaimed tree fits; failure is OutOfMemory with the occupied leaves unchanged; on success the block is a leaf tagged with the usage, aligned, holding the request, inside `[0, size)`, and the occupied leaves grow by exactly that block, a leaf that the search could not split further; with that block freed again, it is the first fitting leaf of the tree in left-to-right order |
| Buddy.MallocSearch | src/main/java/demo/vkmm/BuddyBlockMemoryAllocator.java:52-58 | OutOfMemory exactly when no FREE leaf of the reclaimed tree holds the request once aligned; on success the block lies inside the leftmost such leaf |
| Buddy.FirstFitMeaning | src/main/java/demo/vkmm/BuddyBlockMemoryAllocator.java:141-166 | the reference search finds a leaf iff some leaf fits, and the leaf at the path it returns fits |
| Buddy.Free | src/main/java/demo/vkmm/BuddyBlockMemoryAllocator.java:240-245 | changes only the tree; the node at the block's path becomes a FREE leaf without children; the occupied leaves lose exactly that block's; the heap stays valid |
| Buddy.IsEmpty | src/main/java/demo/vkmm/BuddyBlockMemoryAllocator.java:82-86 | true iff no leaf is occupied; changes only the tree; the reclaim on the way keeps the heap valid and changes no occupied leaf |
| Buddy.IsEmptyIdempotent | src/main/java/demo/vkmm/BuddyBlockMemoryAllocator.java:82-86 | a second `isEmpty` gives the same heap and the same answer |
| Buddy.AllocatedDisjoint | src/main/java/demo/vkmm/BuddyBlockMemoryAllocator.java:168-185 | the occupied leaves of a well-formed tree are IMAGE or BUFFER, inside the node's range, pairwise disjoint in address order, and aligned at or past their start |
| Buddy.ValidHeapNoOverlap | src/main/java/demo/vkmm/BuddyBlockMemoryAllocator.java:48-64 | in every valid heap (which malloc, free and isEmpty preserve) the occupied blocks are disjoint and inside `[0, size)` |
| Buddy.MallocFreeRestores | src/main/java/demo/vkmm/BuddyBlockMemoryAllocator.java:240-245 | malloc then free of the returned block restores the multiset of occupied leaves, and so the answer of `isEmpty` |
| Buddy.Map | src/main/java/demo/vkmm/BuddyBlockMemoryAllocator.java:229-233 | a block's `map()` maps its heap: only the heap's mapping changes, its count rises by one, and the native map is issued iff the heap was not mapped |
| Buddy.Unmap | src/main/java/demo/vkmm/BuddyBlockMemoryAllocator.java:235-238 | a block's `unmap()` unmaps its heap: only the mapping changes, its count drops by one, and the native unmap is issued iff the count was one |
| Buddy.MapUnmap | src/main/java/demo/vkmm/BuddyBlockMemoryAllocator.java:88-110 | mapping then unmapping a block gives back the heap as it was, with a native unmap exactly when the map was native |
| Buddy.FreshRoundTrip | src/main/java/demo/vkmm/BuddyBlockMemoryAllocator.java:82-86 | a fresh heap serves a request iff it is at most the heap size; then free and `isEmpty` collapse the tree back to the constructor's single FREE root and report empty |
| Slab.Classes | src/main/java/demo/vkmm/SlabMemoryAllocator.java:71-81 | the layout loop gives each class its size and count of slots; slot `j` of a class lies at the class base plus `size * j`; every slot is FREE with aligned offset equal to its offset |
| Slab.Init | src/main/java/demo/vkmm/SlabMemoryAllocator.java:47-81 | the total size is the sum of `size * count`; slot `j` of class `i` starts at the sum over earlier classes plus `size_i * j`, has length `size_i`, is FREE and unaligned |
| Slab.LayoutDisjoint | src/main/java/demo/vkmm/SlabMemoryAllocator.java:71-81 | the slots of a fresh heap are pairwise disjoint in layout order and inside `[0, total size)` |
| Slab.FirstFree | src/main/java/demo/vkmm/SlabMemoryAllocator.java:115-120 | every slot before the index is in use, and the slot at the index (if any) is FREE |
| Slab.MallocFrom | src/main/java/demo/vkmm/SlabMemoryAllocator.java:106-131 | the loop keeps every slot's range, leaves earlier classes untouched, and claims a slot that exists |
| Slab.MallocFromFails | src/main/java/demo/vkmm/SlabMemoryAllocator.java:106-134 | the loop fails iff no remaining class has slots large enough and a first FREE slot that still holds the request once aligned |
| Slab.MallocFromChoice | src/main/java/demo/vkmm/SlabMemoryAllocator.java:106-131 | it claims the first FREE slot of the first class that yields, tags it and sets its aligned offset to `alignUp(offset, alignment)`; no earlier class yields |
| Slab.MallocFromTags | src/main/java/demo/vkmm/SlabMemoryAllocator.java:122-127 | no tag changes but the claimed slot's |
| Slab.MallocFromAligns | src/main/java/demo/vkmm/SlabMemoryAllocator.java:184-186 | every aligned offset the loop rewrites becomes `alignUp` of the slot's start |
| Slab.Malloc | src/main/java/demo/vkmm/SlabMemoryAllocator.java:101-135 | only the classes change and every slot range stays; failure is OutOfMemory; the block is an existing slot |
| Slab.MallocSpec | src/main/java/demo/vkmm/SlabMemoryAllocator.java:101-135 | success iff some class yields; the block was the first FREE slot of its class; no earlier class yields; it is now tagged; its aligned offset is a multiple of the alignment at or past its start; it still holds the request; no other tag changes |
| Slab.Free | src/main/java/demo/vkmm/SlabMemoryAllocator.java:215-219 | the slot is FREE with its aligned offset reset to its offset; every other slot and every range is unchanged |
| Slab.InitEmpty | src/main/java/demo/vkmm/SlabMemoryAllocator.java:88-93 | a fresh heap is empty and every slot starts aligned at its offset |
| Slab.OperationsKeepLayout | src/main/java/demo/vkmm/SlabMemoryAllocator.java:172-175 | malloc and free keep every slot where the constructor laid it out, and every aligned offset at or past its slot's start |
| Slab.Map | src/main/java/demo/vkmm/SlabMemoryAllocator.java:203-208 | a block's `map()` maps its heap: only the heap's mapping changes, its count rises by one, and the native map is issued iff the heap was not mapped |
| Slab.Unmap | src/main/java/demo/vkmm/SlabMemoryAllocator.java:210-213 | a block's `unmap()` unmaps its heap: only the mapping changes, its count drops by one, and the native unmap is issued iff the count was one |
| Slab.MapUnmap | src/main/java/demo/vkmm/SlabMemoryAllocator.java:137-159 | mapping then unmapping a block gives back the heap as it was, with a native unmap exactly when the map was native |
| Slab.MallocFreeRestores | src/main/java/demo/vkmm/SlabMemoryAllocator.java:215-219 | malloc then free of the slot restores every tag, so an empty heap is empty again |
| Linear.PaddedSize | src/main/java/demo/vkmm/LinearMemoryAllocator.java:45-49 | the padded size holds the request; on a usage conflict it is the least multiple of the granularity at or above `alignUp(size, alignment)` (a multiple, at least that, and less than one granularity more); otherwise exactly `alignUp(size, alignment)` |
| Linear.Malloc | src/main/java/demo/vkmm/LinearMemoryAllocator.java:44-61 | OutOfMemory, with the heap unchanged, iff `pageSize + padded > pointer + size`; otherwise the block starts at the old pointer with the padded size, the pointer moves past it and `lastType` becomes the usage |
| Linear.MallocContiguous | src/main/java/demo/vkmm/LinearMemoryAllocator.java:55-58 | the next block starts where the previous one ends, so blocks never overlap |
| Linear.EmptinessTracksPointer | src/main/java/demo/vkmm/LinearMemoryAllocator.java:78-81 | a fresh heap is empty; the pointer never decreases; after a successful non-empty request the heap is not empty |
| Linear.Map | src/main/java/demo/vkmm/LinearMemoryAllocator.java:131-136 | a block's `map()` maps its heap: only the heap's mapping changes, its count rises by one, and the native map is issued iff the heap was not mapped |
| Linear.Unmap | src/main/java/demo/vkmm/LinearMemoryAllocator.java:138-141 | a block's `unmap()` unmaps its heap: only the mapping changes, its count drops by one, and the native unmap is issued iff the count was one |
| Linear.MapUnmap | src/main/java/demo/vkmm/LinearMemoryAllocator.java:83-105 | mapping then unmapping a block gives back the heap as it was, with a native unmap exactly when the map was native |
| Linear.GranularityPadding | src/main/java/demo/vkmm/LinearMemoryAllocator.java:47-49 | a buffer after an image is padded to a multiple of the granularity; an image after an image is not |
| Linear.OverrunExample | src/main/java/demo/vkmm/LinearMemoryAllocator.java:51-53 | the bound test as written accepts a block that ends past the heap |
| Linear.MisalignedExample | src/main/java/demo/vkmm/LinearMemoryAllocator.java:55 | the block starts at the pointer, which need not be a multiple of the requested alignment |
| Linear.MallocChecked | src/main/java/demo/vkmm/LinearMemoryAllocator.java:44-61 | corrected: the block starts at the pointer aligned up; OutOfMemory iff it would end past the heap; a block is aligned and inside the heap |
| Linear.MallocCheckedStaysInside | src/main/java/demo/vkmm/LinearMemoryAllocator.java:51-58 | with the corrected test the pointer never passes the heap size and never decreases |
| Stack.Malloc | src/main/java/demo/vkmm/StackMemoryAllocator.java:52-65 | the block ends at or below the old pointer and starts at the new one; the block size is the unpadded request; without a usage conflict the new pointer is the greatest multiple of the alignment at or below `pointer - size`; on a conflict it is the greatest multiple of the granularity at or below that aligned value (a multiple, at most it, and less than one granularity below); when the alignment and the granularity divide one another (Vulkan's powers of two always do) the block is aligned even after a conflict's padding |
| Stack.MaskKeepsAlignment | src/main/java/demo/vkmm/StackMemoryAllocator.java:54-58 | masking an aligned pointer down to the granularity keeps it aligned when the alignment and the granularity divide one another |
| Stack.Map | src/main/java/demo/vkmm/StackMemoryAllocator.java:164-169 | a block's `map()` maps its heap: only the heap's mapping changes, its count rises by one, and the native map is issued iff the heap was not mapped |
| Stack.Unmap | src/main/java/demo/vkmm/StackMemoryAllocator.java:171-174 | a block's `unmap()` unmaps its heap: only the mapping changes, its count drops by one, and the native unmap is issued iff the count was one |
| Stack.MapUnmap | src/main/java/demo/vkmm/StackMemoryAllocator.java:116-138 | mapping then unmapping a block gives back the heap as it was, with a native unmap exactly when the map was native |
| Stack.MallocAll | src/main/java/demo/vkmm/StackMemoryAllocator.java:88-94 | a run of allocations keeps the frames and never raises the pointer |
| Stack.Push | src/main/java/demo/vkmm/StackMemoryAllocator.java:82-86 | saves the pointer in the next frame slot; faults (IndexOutOfBounds) iff eight frames are already saved, and the index is incremented in both cases |
| Stack.Pop | src/main/java/demo/vkmm/StackMemoryAllocator.java:72-80 | releases the heap iff no frame is saved; otherwise decrements the index and restores the saved pointer, leaving `lastType` alone; faults when the index is past the array |
| Stack.PushMallocPop | src/main/java/demo/vkmm/StackMemoryAllocator.java:72-86 | push, any allocations, pop restores exactly the pushed pointer |
| Stack.FramesNest | src/main/java/demo/vkmm/StackMemoryAllocator.java:72-86 | with two nested frames the first pop restores the inner pointer and the second the outer one |
| Stack.FreshHeap | src/main/java/demo/vkmm/StackMemoryAllocator.java:111-114 | a fresh heap is empty and its pop releases it; a non-empty allocation makes it non-empty |
| Stack.OverflowFaults | src/main/java/demo/vkmm/StackMemoryAllocator.java:82-86 | a ninth push faults with the index at nine, and the next pop faults too |
| Stack.SuccessiveBlocksDisjoint | src/main/java/demo/vkmm/StackMemoryAllocator.java:88-94 | each block lies wholly below the previous one |
| Stack.UnderflowExample | src/main/java/demo/vkmm/StackMemoryAllocator.java:52-65 | allocation as written hands out a negative offset |
| Stack.MallocChecked | src/main/java/demo/vkmm/StackMemoryAllocator.java:52-65 | corrected: OutOfMemory with the heap unchanged iff the new pointer would be negative; otherwise the same as `mallocImpl` |
| Stack.CheckedStaysInBounds | src/main/java/demo/vkmm/StackMemoryAllocator.java:52-86 | with the check, every block lies inside the memory object, and allocation, push and pop keep the pointer and the saved frames between 0 and the size |
| Unique.Malloc | src/main/java/demo/vkmm/UniqueMemoryAllocator.java:25-33 | the block is the new memory object, with size a multiple of the alignment in `[size, size + alignment)`; the set gains its handle, and an equal block already present is not added twice |
| Unique.Free | src/main/java/demo/vkmm/UniqueMemoryAllocator.java:35-39 | releases exactly the memory objects in the set and leaves the heap empty |
| Unique.MallocThenFree | src/main/java/demo/vkmm/UniqueMemoryAllocator.java:30 | after a malloc the heap is not empty, and the next `free()` also releases the new memory object |
| Unique.FreeBlock | src/main/java/demo/vkmm/UniqueMemoryAllocator.java:110-113 | as written: releases the block's memory object and leaves the heap as it was |
| Unique.DoubleRelease | src/main/java/demo/vkmm/UniqueMemoryAllocator.java:110-113 | a block freed on its own is released again by the heap's `free()`, and the heap does not become empty |
| Unique.FreeBlockChecked | src/main/java/demo/vkmm/UniqueMemoryAllocator.java:110-113 | corrected: releases the memory object and drops exactly that handle from the set |
| Unique.CheckedReleasesOnce | src/main/java/demo/vkmm/UniqueMemoryAllocator.java:110-113 | with the corrected block free, malloc then free gives back the heap as it was, and the heap's `free()` does not release the object again |
| Manager.MemoryTypeIndexFrom | src/main/java/demo/vkmm/MemoryManager.java:116-122 | the search from `i` returns the first suitable index at or after `i`, or none when no later index is suitable |
| Manager.MemoryTypeIndex | src/main/java/demo/vkmm/MemoryManager.java:115-125 | the least index whose bit is set in the type bits and whose flags include the mask; UnsupportedMemoryType iff there is none |
| Manager.HeapMalloc | src/main/java/demo/vkmm/MemoryManager.java:101 | a slab or buddy malloc keeps the heap valid and the same; failure is OutOfMemory and leaves the blocks in use as they were; a block is from that heap's memory object, aligned, and holds the request |
| Manager.HeapMallocGrows | src/main/java/demo/vkmm/MemoryManager.java:101 | a successful malloc on a pool heap puts exactly the block it hands out in use: a buddy heap's occupied leaves grow by that leaf, which carries the usage tag; a slab heap's slot turns from FREE to the usage while every other slot keeps its tag |
| Manager.HeapIsEmpty | src/main/java/demo/vkmm/MemoryManager.java:61 | true iff no block of the heap is in use; the heap stays valid and the same, with the same blocks in use (the same occupied buddy leaves, or the same slab tags) |
| Manager.TryHeaps | src/main/java/demo/vkmm/MemoryManager.java:95-105 | each heap of the requested type that the loop reaches (up to and including the serving one, or all of them when none serves) holds what its malloc left; every other heap, before the start, of another type or after the serving one, is untouched; the serving heap has the requested type and its malloc produced the block; every heap of the type before the serving one fails (first fit across heaps), and when none serves every heap of the type failed |
| Manager.TryHeapsFails | src/main/java/demo/vkmm/MemoryManager.java:99-105 | the loop comes out empty-handed iff every heap of the type fails |
| Manager.TryHeapsKeepsBlocks | src/main/java/demo/vkmm/MemoryManager.java:99-105 | every heap except the serving one keeps its blocks in use |
| Manager.TryHeapsServesFirst | src/main/java/demo/vkmm/MemoryManager.java:95-105 | a serving heap is the first of the type whose malloc succeeds, gains exactly the block handed out, and is the only heap that gains one |
| Manager.GrownHeapServes | src/main/java/demo/vkmm/MemoryManager.java:107-112 | when no heap serves, no heap of the pool gains a block, and a success of the added heap puts exactly the block in use there |
| Manager.PoolAllocate | src/main/java/demo/vkmm/MemoryManager.java:91-113 | the pool grows by exactly one heap, at the end, iff every heap of the type fails; the new heap's malloc result is returned as is; only OutOfMemory can escape, and then no heap of the pool gains a block; the block is aligned, holds the request and comes from the first heap of the type whose malloc succeeds (or the added heap), which gains exactly that block while every other heap of the pool keeps its blocks in use |
| Manager.NewPoolHeap | src/main/java/demo/vkmm/MemoryManager.java:141-143 | the supplier builds a slab heap for small requests and a fresh buddy heap otherwise; the buddy heap is at least as large as the large-request threshold |
| Manager.AllocateLarge | src/main/java/demo/vkmm/MemoryManager.java:152-159 | the unique heap slot of the usage and type becomes the slot's heap (or a new one when it was empty) with the new memory object recorded; every other slot of the usage, every pool and the other usage's slots stay as they were, the handle counter advances by one, and earlier objects stay recorded |
| Manager.AllocatePooled | src/main/java/demo/vkmm/MemoryManager.java:160-164 | only the selected pool and the handle counter change; the pool grows by one heap exactly when a handle is drawn; failure is OutOfMemory and no heap of the pool gains a block; the block holds the request and comes from the first heap of the type in that pool whose malloc succeeds (or the new heap), which gains exactly that block while every other heap keeps its blocks in use |
| Manager.Allocate | src/main/java/demo/vkmm/MemoryManager.java:147-165 | no suitable memory type gives UnsupportedMemoryType with nothing changed; otherwise only the unique slot of that memory type (large route) or the routed pool changes, besides the handle counter; a block is aligned and holds the request; the manager stays valid |
| Manager.AllocateRoutes | src/main/java/demo/vkmm/MemoryManager.java:152-164 | a large request is served by the unique heap of its type; a small one by a slab heap of its type in the small pool; the rest by a buddy heap of its type in the standard pool |
| Manager.NewBuddyServes | src/main/java/demo/vkmm/MemoryManager.java:111-112 | a fresh standard heap always serves a standard-size request |
| Manager.AllocateFailures | src/main/java/demo/vkmm/MemoryManager.java:107-112 | an allocation fails only for want of a memory type, or with OutOfMemory on the small route |
| Manager.AllocateBufferMemory | src/main/java/demo/vkmm/MemoryManager.java:147-165 | an aligned block that holds the request, or UnsupportedMemoryType/OutOfMemory; no image heap changes, and of the buffer heaps only the unique slot of the chosen memory type or the routed pool can change |
| Manager.AllocateImageMemory | src/main/java/demo/vkmm/MemoryManager.java:127-145 | an aligned block that holds the request, or UnsupportedMemoryType/OutOfMemory; no buffer heap changes, and of the image heaps only the unique slot of the chosen memory type or the routed pool can change |
| Manager.UsagesSeparate | src/main/java/demo/vkmm/MemoryManager.java:127-165 | an allocation of one usage leaves every heap of the other usage as it was |
| Manager.LargeHeapReused | src/main/java/demo/vkmm/MemoryManager.java:153-155 | two large requests in a row get distinct memory objects, both recorded in the same unique heap |
| Manager.RouteBoundaries | src/main/java/demo/vkmm/MemoryManager.java:152-164 | a byte over 128 MiB is large, 128 MiB itself and 32 KiB + 1 are standard, 32 KiB is small; small iff at most 32 KiB, large iff over 128 MiB |
| Manager.SmallHeapLayout | src/main/java/demo/vkmm/MemoryManager.java:28-32 | the default slab classes take 1 MiB each, 4 MiB in all |
| Manager.Positions | src/main/java/demo/vkmm/MemoryManager.java:60-65 | the positions of a pool's heaps in use, or found empty, lie inside the pool |
| Manager.PositionsExact | src/main/java/demo/vkmm/MemoryManager.java:60-65 | `Positions` holds exactly the qualifying heaps' positions, each once, in increasing order |
| Manager.Sweep | src/main/java/demo/vkmm/MemoryManager.java:60-65 | the heaps kept are the heaps in use, in their order, each still in use, the same heap and with the same blocks in use; the handles released are the memory objects of the heaps `isEmpty()` found empty, in pool order; a pool whose heaps are all in use releases nothing |
| Manager.KeepsEveryInUse | src/main/java/demo/vkmm/MemoryManager.java:60-65 | every heap in use is among the heaps kept, with the same blocks in use |
| Manager.EmptyHandlesExact | src/main/java/demo/vkmm/MemoryManager.java:60-65 | the released handles include every empty heap's memory object and nothing but empty heaps' memory objects |
| Manager.GarbageCollect | src/main/java/demo/vkmm/MemoryManager.java:57-67 | each of the four pools keeps exactly its heaps in use, in order, each with the same blocks in use; the released handles are the empty heaps' memory objects, pool by pool in the order of the source's four loops; the unique heaps and everything else are unchanged |
| Manager.GarbageCollectTwice | src/main/java/demo/vkmm/MemoryManager.java:57-67 | a second garbage collection right after the first releases nothing |
| Manager.Free | src/main/java/demo/vkmm/MemoryManager.java:69-89 | afterwards the manager is as constructed; the handles released are exactly the memory objects the manager owned: every unique block's and every pool heap's, and no other |
| Manager.AllocateThenFree | src/main/java/demo/vkmm/MemoryManager.java:69-89 | whatever an allocation hands out, the manager's `free()` releases its memory object |

## Left out

- Native Vulkan calls are not modelled: `vkAllocateMemory`, `vkFreeMemory`, `vkMapMemory`, `vkUnmapMemory`, `vkGetPhysicalDevice*Properties`, the bind calls, and `MemoryStack` plumbing. A new memory object is an opaque handle passed in, or drawn from a counter in the manager, and releasing memory objects is reported as the handles released.
- The mapped `ByteBuffer` and its `memSlice` views are not modelled. The shared map/unmap reference count is the `Mapping` module; each heap carries a `Mapping.State`. A block's slice is its offset and size.
- Unique block `map`/`unmap` call the native functions directly, with no reference count, so there is nothing to model beyond the native calls.
- The `WeakReference` to the device and the "Device was lost!" checks (`getDevice`) are garbage-collection liveness, not allocator logic.
- The `Long.getLong` overrides of the manager's constants are not modelled; the constants have their default values.
- The `assert VK_SUCCESS` checks are not modelled: native failure is out of scope.
- Java `long` overflow and the `(int)` casts of the mapping slices are not modelled. `alignUp` is modelled for non-negative values and a positive alignment (Vulkan alignments are positive); negative operands are not modelled.
- The linear block's `free()` is empty in the source, so it has no counterpart here.
- The stack's `close()` is `pop()`; `Stack.Pop` models both.
- The accessors `getHandle`, `getOffset`, `getSize` and `getTypeIndex` are fields of the datatypes, with `UsableSize` for the slab and buddy `getSize`. MemoryBlock.java's bind methods are foreign calls.
- The linear and stack heaps are not used by the manager, in the source as here.
- Stack.Malloc: the mask `& ~(b - 1)` is modelled as rounding down to a multiple of `b`. The two agree exactly when `b` is a power of two, which Vulkan guarantees for alignments and the granularity; the mask's result for other values is not modelled.
- Buddy.Init: the minimum subdivision size is positive, while the Java constructor accepts 0. The manager always passes 4 KiB; with 0 and a 0-byte request the source's `sub` would keep splitting forever, so that case is not modelled.
- Buddy.Free: a block is its path from the root, while the source frees the node object it handed out. The two differ only when a block is freed twice and, in between, a reclaim merged its node away and a later malloc split the tree again: the source then tags the detached node and changes nothing in the tree, while the model frees whatever block now sits at that path. A repeated free is a caller error the source does not guard against either way.
- The `memSlice` window a block's `map()` returns is not modelled; `Map` keeps only the heap's mapping state and the native call.

## Findings

| source | as written | input that shows it | evidently intended | confidence | as-written member | corrected member |
|---|---|---|---|---|---|---|
| src/main/java/demo/vkmm/LinearMemoryAllocator.java:51-53 | out of memory only when `pageSize + alignedSize > pointer + size` | size 1024, granularity 1, pointer 1000, 100-byte buffer request: accepted and handed `[1000, 1100)` | fail when the block would end past the heap (`pointer + alignedSize > size`, keeping a page of headroom) | high, not executed | Linear.OverrunExample | Linear.MallocChecked |
| src/main/java/demo/vkmm/LinearMemoryAllocator.java:55 | the block starts at the pointer; only its size is rounded to the alignment | fresh 1024-byte heap, granularity 1: a 1-byte request, then an `a`-byte request aligned to `a` (1 < a <= 1024) is handed offset 1 | the start rounded up to the alignment | medium, not executed | Linear.MisalignedExample | Linear.MallocChecked |
| src/main/java/demo/vkmm/StackMemoryAllocator.java:52-65 | no check of the new pointer against the start of the memory object | fresh 16-byte heap, granularity 1: a 32-byte request with alignment 1 is handed offset -16 | OutOfMemory when the new pointer would be negative | high, not executed | Stack.UnderflowExample | Stack.MallocChecked |
| src/main/java/demo/vkmm/UniqueMemoryAllocator.java:110-113 | a unique block's `free()` releases its memory object but leaves the block in the heap's set | malloc, then the block's `free()`, then the heap's `free()`: the same handle is released twice, and `isEmpty` stays false in between | drop the block from the set when it is freed | medium, not executed | Unique.DoubleRelease | Unique.FreeBlockChecked |

=== FILE: alignment.dfy ===
/** Alignment arithmetic shared by all allocators (`MemoryAllocator.alignUp`) and the
    round-down that the stack allocator performs with a bit mask. */
module Alignment {

  type Pos = n: nat | n > 0 witness 1

  /** `alignUp(a, b)`: `(a + b - 1) / b * b`. Operands are non-negative, so Java's truncating
      division agrees with Dafny's. The result is the least multiple of `b` at or above `a`. */
  function AlignUp(a: nat, b: Pos): (r: nat)
    ensures r % b == 0
    ensures a <= r < a + b
  {
    var q := (a + b - 1) / b;
    DivModUnique(q * b, q, 0, b);
    q * b
  }

  lemma MulNonneg(d: int, b: Pos)
    requires d >= 0
    ensures d * b >= 0
  {
  }

  lemma MulAtLeast(d: int, b: Pos)
    requires d >= 1
    ensures d * b >= b
  {
    assert d * b == (d - 1) * b + b;
    MulNonneg(d - 1, b);
  }

  /** Euclidean division is determined by quotient and remainder. */
  lemma DivModUnique(x: int, q: int, r: int, b: Pos)
    requires x == q * b + r && 0 <= r < b
    ensures x / b == q && x % b == r
  {
    var q', r' := x / b, x % b;
    assert x == q' * b + r';
    assert (q - q') * b == r' - r;
    if q - q' >= 1 {
      MulAtLeast(q - q', b);
    } else if q' - q >= 1 {
      MulAtLeast(q' - q, b);
    }
  }

  /** Two multiples of `b` that lie less than `b` apart are equal. */
  lemma UniqueMultipleInWindow(x: int, y: int, b: Pos)
    requires x % b == 0 && y % b == 0
    requires x <= y < x + b
    ensures x == y
  {
    var qx, qy := x / b, y / b;
    assert x == qx * b + x % b;
    assert y == qy * b + y % b;
    var d := qy - qx;
    assert d * b == qy * b - qx * b;
    if d >= 1 {
      MulAtLeast(d, b);
    } else if d <= -1 {
      MulAtLeast(-d, b);
    }
  }

  /** A value already on the boundary is left alone; in particular alignment 1 is the identity. */
  lemma AlignUpOfMultiple(a: nat, b: Pos)
    requires a % b == 0
    ensures AlignUp(a, b) == a
    ensures AlignUp(a, 1) == a
  {
    UniqueMultipleInWindow(a, AlignUp(a, b), b);
    UniqueMultipleInWindow(a, AlignUp(a, 1), 1);
  }

  /** No multiple of `b` at or above `a` lies below `AlignUp(a, b)`. */
  lemma AlignUpLeast(a: nat, b: Pos, m: int)
    requires m % b == 0 && a <= m
    ensures AlignUp(a, b) <= m
  {
    var r := AlignUp(a, b);
    if m < r {
      UniqueMultipleInWindow(m, r, b);
    }
  }

  lemma AlignUpIdempotent(a: nat, b: Pos)
    ensures AlignUp(AlignUp(a, b), b) == AlignUp(a, b)
  {
    AlignUpOfMultiple(AlignUp(a, b), b);
  }

  /** Rounding up preserves order. */
  lemma AlignUpMonotone(a: nat, a': nat, b: Pos)
    requires a <= a'
    ensures AlignUp(a, b) <= AlignUp(a', b)
  {
    var r, r' := AlignUp(a, b), AlignUp(a', b);
    if r > r' {
      var q, q' := r / b, r' / b;
      assert r == q * b && r' == q' * b;
      assert (q - q') * b == r - r';
      MulAtLeast(q - q', b);
    }
  }

  /** Floor to a multiple of `b`, also for negative `x`. For a power-of-two `b` this is exactly
      the two's-complement mask `x & ~(b - 1)`. */
  function RoundDown(x: int, b: Pos): (r: int)
    ensures r % b == 0
    ensures x - b < r <= x
  {
    var q := x / b;
    DivModUnique(q * b, q, 0, b);
    q * b
  }

  /** A multiple of a multiple of `a` is a multiple of `a`. */
  lemma MultipleTransitive(x: int, a: Pos, b: Pos)
    requires x % b == 0 && b % a == 0
    ensures x % a == 0
  {
    var q, k := x / b, b / a;
    assert x == q * b;
    assert b == k * a;
    assert x == (q * k) * a by {
      assert q * b == q * (k * a);
    }
    DivModUnique(x, q * k, 0, a);
  }

  /** Rounding a multiple of `b` down to a multiple of `b` leaves it alone. */
  lemma RoundDownOfMultiple(x: int, b: Pos)
    requires x % b == 0
    ensures RoundDown(x, b) == x
  {
    UniqueMultipleInWindow(RoundDown(x, b), x, b);
  }

  /** Rounding a non-negative value down never goes below zero. */
  lemma RoundDownNonneg(x: int, b: Pos)
    requires x >= 0
    ensures RoundDown(x, b) >= 0
  {
    var q := x / b;
    assert q >= 0;
    MulNonneg(q, b);
  }
}

=== FILE: buddy.dfy ===
/** The buddy-block heap (BuddyBlockMemoryAllocator.java): one native memory object managed as a
    binary tree. Allocation searches depth first, left before right, and halves a free leaf while the
    half still holds the request and is at least `minSize`; coalescing is lazy (`reclaim` runs before
    every allocation and emptiness test). A block is identified by its path from the root. */
module Buddy {
  import opened Wrappers
  import opened MemoryTypes
  import opened Alignment
  import Mapping

  datatype Dir = Left | Right

  type Path = seq<Dir>

  /** `BuddyBlockMemoryBlock`: a range `[offset, offset + size)`, its tag, its aligned offset and,
      for a split node, the two children. */
  datatype Node =
    | Leaf(offset: nat, size: nat, tag: MemoryType, alignedOffset: nat)
    | Split(offset: nat, size: nat, tag: MemoryType, alignedOffset: nat, left: Node, right: Node)

  /** `getSize()`: the bytes from the aligned offset to the end of the node (negative when the
      alignment overshoots the node). */
  function UsableSize(n: Node): int {
    n.offset + n.size - n.alignedOffset
  }

  /** What `getSize()` would be for the range once `align(alignment)` has run. */
  function AlignedSize(offset: nat, size: nat, alignment: Pos): int {
    offset + size - AlignUp(offset, alignment)
  }

  /** A node built by the constructor and then aligned. */
  function FreshLeaf(offset: nat, size: nat, alignment: Pos): Node {
    Leaf(offset, size, FREE, AlignUp(offset, alignment))
  }

  /** Tree well-formedness: a split node is UNKNOWN with two equal halves laid out from its offset
      and inside its range, a leaf is FREE, IMAGE or BUFFER, and no offset is aligned downwards. */
  predicate Wf(n: Node) {
    && n.offset <= n.alignedOffset
    && match n
       case Leaf(_, _, tag, _) => tag == FREE || IsUsage(tag)
       case Split(offset, size, tag, _, left, right) =>
         && tag == UNKNOWN
         && left.offset == offset
         && right.offset == offset + left.size
         && right.size == left.size
         && 2 * left.size <= size
         && Wf(left) && Wf(right)
  }

  predicate AllFree(n: Node) {
    match n
    case Leaf(_, _, tag, _) => tag == FREE
    case Split(_, _, _, _, left, right) => AllFree(left) && AllFree(right)
  }

  /** No split node has two FREE children: what `reclaim` leaves behind. */
  predicate Collapsed(n: Node) {
    match n
    case Leaf(_, _, _, _) => true
    case Split(_, _, _, _, left, right) =>
      !(left.tag == FREE && right.tag == FREE) && Collapsed(left) && Collapsed(right)
  }

  /** The leaves, left to right. */
  function Leaves(n: Node): seq<Node> {
    match n
    case Leaf(_, _, _, _) => [n]
    case Split(_, _, _, _, left, right) => Leaves(left) + Leaves(right)
  }

  /** The occupied leaves (tag other than FREE), left to right. */
  function Allocated(n: Node): seq<Node> {
    match n
    case Leaf(_, _, tag, _) => if tag == FREE then [] else [n]
    case Split(_, _, _, _, left, right) => Allocated(left) + Allocated(right)
  }

  function NodeAt(n: Node, p: Path): Option<Node>
    decreases |p|
  {
    if p == [] then Some(n)
    else match n
      case Leaf(_, _, _, _) => None
      case Split(_, _, _, _, left, right) => NodeAt(if p[0] == Left then left else right, p[1..])
  }

  /** The tree with the node at `p` replaced by `m` (unchanged when `p` leads nowhere). */
  function Replace(n: Node, p: Path, m: Node): Node
    decreases |p|
  {
    if p == [] then m
    else match n
      case Leaf(_, _, _, _) => n
      case Split(offset, size, tag, aligned, left, right) =>
        if p[0] == Left then Split(offset, size, tag, aligned, Replace(left, p[1..], m), right)
        else Split(offset, size, tag, aligned, left, Replace(right, p[1..], m))
  }

  /** The node at `p` is a FREE leaf aligned for `alignment` that holds `req` bytes. */
  predicate Serves(n: Node, p: Path, req: nat, alignment: Pos) {
    var m := NodeAt(n, p);
    && m.Some? && m.value.Leaf? && m.value.tag == FREE
    && m.value.alignedOffset == AlignUp(m.value.offset, alignment)
    && UsableSize(m.value) >= req
  }

  /** A leaf the search may hand out: FREE and large enough once aligned. */
  predicate Fits(n: Node, req: nat, alignment: Pos) {
    n.Leaf? && n.tag == FREE && AlignedSize(n.offset, n.size, alignment) >= req
  }

  /** Reference search without side effects: the first fitting leaf in left-to-right order. */
  function FirstFit(n: Node, req: nat, alignment: Pos): Option<Path> {
    match n
    case Leaf(_, _, _, _) => if Fits(n, req, alignment) then Some([]) else None
    case Split(_, _, _, _, left, right) =>
      var pl := FirstFit(left, req, alignment);
      if pl.Some? then Some([Left] + pl.value)
      else
        var pr := FirstFit(right, req, alignment);
        if pr.Some? then Some([Right] + pr.value) else None
  }

  /** The search stops at a leaf only when it cannot split it further: half of its aligned size
      is below the request or `minSize`, or neither half holds the request once aligned. */
  predicate Unsplittable(n: Node, req: nat, alignment: Pos, minSize: Pos) {
    var half := AlignedSize(n.offset, n.size, alignment) / 2;
    || half < req || half < minSize
    || (AlignedSize(n.offset, half, alignment) < req && AlignedSize(n.offset + half, half, alignment) < req)
  }

  /** Whether a leaf can be split depends only on its range. */
  lemma UnsplittableRange(a: Node, b: Node, req: nat, alignment: Pos, minSize: Pos)
    requires a.offset == b.offset && a.size == b.size
    ensures Unsplittable(a, req, alignment, minSize) == Unsplittable(b, req, alignment, minSize)
  {
  }

  /** `sub(size, alignment)` on a FREE node without children: align it, fail if it is too small,
      keep it whole if half of its aligned size would not hold the request or would be below
      `minSize`, and otherwise split it and descend into the first half that fits. */
  function SubFree(offset: nat, size: nat, req: nat, alignment: Pos, minSize: Pos): (r: (Node, Option<Path>))
    decreases size
    ensures r.0.offset == offset && r.0.size == size && r.0.alignedOffset == AlignUp(offset, alignment)
    ensures Wf(r.0) && AllFree(r.0)
    ensures r.1.Some? <==> AlignedSize(offset, size, alignment) >= req
    ensures r.1 == FirstFit(r.0, req, alignment)
    ensures r.1.Some? ==> Serves(r.0, r.1.value, req, alignment)
    ensures r.1.Some? ==> Unsplittable(NodeAt(r.0, r.1.value).value, req, alignment, minSize)
    ensures r.0.Split? ==>
      && r.0.left.size == AlignedSize(offset, size, alignment) / 2
      && r.0.left.size >= req && r.0.left.size >= minSize
  {
    var aligned := AlignUp(offset, alignment);
    var usable := offset + size - aligned;
    if usable < req then (Leaf(offset, size, FREE, aligned), None)
    else
      var half: nat := usable / 2;
      if half < req || half < minSize then (Leaf(offset, size, FREE, aligned), Some([]))
      else if AlignedSize(offset, half, alignment) >= req then
        var (left, p) := SubFree(offset, half, req, alignment, minSize);
        (Split(offset, size, UNKNOWN, aligned, left, FreshLeaf(offset + half, half, alignment)), Some([Left] + p.value))
      else if AlignedSize(offset + half, half, alignment) >= req then
        var (right, p) := SubFree(offset + half, half, req, alignment, minSize);
        (Split(offset, size, UNKNOWN, aligned, FreshLeaf(offset, half, alignment), right), Some([Right] + p.value))
      else (Leaf(offset, size, FREE, aligned), Some([]))
  }

  /** `sub(size, alignment)`: left subtree, then right subtree, then the node itself if it is a
      FREE leaf. A split node is UNKNOWN in a well-formed tree, so it is never handed out. */
  function Sub(n: Node, req: nat, alignment: Pos, minSize: Pos): (r: (Node, Option<Path>))
    requires Wf(n)
    ensures r.0.offset == n.offset && r.0.size == n.size
    ensures Wf(r.0)
    ensures r.1.Some? <==> FirstFit(n, req, alignment).Some?
    ensures r.1 == FirstFit(r.0, req, alignment)
    ensures r.1.Some? ==> Serves(r.0, r.1.value, req, alignment)
    ensures r.1.Some? ==> Unsplittable(NodeAt(r.0, r.1.value).value, req, alignment, minSize)
  {
    match n
    case Leaf(offset, size, tag, _) =>
      if tag != FREE then (n, None) else SubFree(offset, size, req, alignment, minSize)
    case Split(offset, size, tag, aligned, left, right) =>
      var (left', pl) := Sub(left, req, alignment, minSize);
      if pl.Some? then (Split(offset, size, tag, aligned, left', right), Some([Left] + pl.value))
      else
        var (right', pr) := Sub(right, req, alignment, minSize);
        if pr.Some? then (Split(offset, size, tag, aligned, left', right'), Some([Right] + pr.value))
        else (Split(offset, size, tag, aligned, left', right'), None)
  }

  /** `reclaim()`: post-order; a split node whose two children are FREE becomes a FREE leaf. */
  function Reclaim(n: Node): (r: Node)
    ensures r.offset == n.offset && r.size == n.size && r.alignedOffset == n.alignedOffset
    ensures Wf(n) ==> Wf(r) && Allocated(r) == Allocated(n)
    ensures Collapsed(r)
    ensures AllFree(n) ==> r == Leaf(n.offset, n.size, FREE, n.alignedOffset)
  {
    match n
    case Leaf(_, _, _, _) => n
    case Split(offset, size, tag, aligned, left, right) =>
      var left', right' := Reclaim(left), Reclaim(right);
      if left'.tag == FREE && right'.tag == FREE then Leaf(offset, size, FREE, aligned)
      else Split(offset, size, tag, aligned, left', right')
  }

  /** The search only descends inside the leaf the reference search picks. */
  lemma {:induction false} SubFollowsFirstFit(n: Node, req: nat, alignment: Pos, minSize: Pos)
    requires Wf(n)
    ensures Sub(n, req, alignment, minSize).1.Some? ==>
      FirstFit(n, req, alignment).value <= Sub(n, req, alignment, minSize).1.value
  {
    match n
    case Leaf(_, _, _, _) =>
    case Split(_, _, _, _, left, right) =>
      var pl := Sub(left, req, alignment, minSize).1;
      if pl.Some? {
        SubFollowsFirstFit(left, req, alignment, minSize);
        PrefixCons(Left, FirstFit(left, req, alignment).value, pl.value);
      } else {
        var pr := Sub(right, req, alignment, minSize).1;
        if pr.Some? {
          SubFollowsFirstFit(right, req, alignment, minSize);
          PrefixCons(Right, FirstFit(right, req, alignment).value, pr.value);
        }
      }
  }

  lemma PrefixCons(d: Dir, a: Path, b: Path)
    requires a <= b
    ensures [d] + a <= [d] + b
  {
    assert ([d] + b)[..|[d] + a|] == [d] + b[..|a|];
  }

  /** The search touches no occupied leaf, and tags nothing: splitting a tree of free leaves
      leaves only free leaves. */
  lemma {:induction false} SubKeepsOccupied(n: Node, req: nat, alignment: Pos, minSize: Pos)
    requires Wf(n)
    ensures Allocated(Sub(n, req, alignment, minSize).0) == Allocated(n)
    ensures AllFree(n) ==> AllFree(Sub(n, req, alignment, minSize).0)
  {
    match n
    case Leaf(_, _, tag, _) =>
      if tag == FREE {
        FreeTreeHasNoOccupied(Sub(n, req, alignment, minSize).0);
      }
    case Split(_, _, _, _, left, right) =>
      SubKeepsOccupied(left, req, alignment, minSize);
      SubKeepsOccupied(right, req, alignment, minSize);
  }

  lemma {:induction false} FreeTreeHasNoOccupied(n: Node)
    requires AllFree(n)
    ensures Allocated(n) == []
  {
    match n
    case Leaf(_, _, _, _) =>
    case Split(_, _, _, _, left, right) =>
      FreeTreeHasNoOccupied(left);
      FreeTreeHasNoOccupied(right);
  }

  /** A tree that is already collapsed is left alone. */
  lemma {:induction false} ReclaimFixesCollapsed(n: Node)
    requires Collapsed(n)
    ensures Reclaim(n) == n
  {
    match n
    case Leaf(_, _, _, _) =>
    case Split(_, _, _, _, left, right) =>
      ReclaimFixesCollapsed(left);
      ReclaimFixesCollapsed(right);
  }

  lemma ReclaimIdempotent(n: Node)
    ensures Reclaim(Reclaim(n)) == Reclaim(n)
  {
    ReclaimFixesCollapsed(Reclaim(n));
  }

  /** Replacing the node at a path by one with the same range keeps the tree well formed, puts the
      new node at that path, and changes the occupied leaves by exactly the swap. */
  lemma ReplaceLemma(n: Node, p: Path, m: Node)
    requires Wf(n) && NodeAt(n, p).Some?
    requires m.offset == NodeAt(n, p).value.offset && m.size == NodeAt(n, p).value.size
    requires Wf(m)
    ensures Wf(Replace(n, p, m))
    ensures Replace(n, p, m).offset == n.offset && Replace(n, p, m).size == n.size
    ensures NodeAt(Replace(n, p, m), p) == Some(m)
    ensures multiset(Allocated(Replace(n, p, m)))
      == multiset(Allocated(n)) - multiset(Allocated(NodeAt(n, p).value)) + multiset(Allocated(m))
  {
    ReplaceShape(n, p, m);
    ReplaceAllocated(n, p, m);
  }

  lemma {:induction false} ReplaceShape(n: Node, p: Path, m: Node)
    requires Wf(n) && NodeAt(n, p).Some?
    requires m.offset == NodeAt(n, p).value.offset && m.size == NodeAt(n, p).value.size
    requires Wf(m)
    ensures Wf(Replace(n, p, m))
    ensures Replace(n, p, m).offset == n.offset && Replace(n, p, m).size == n.size
    ensures NodeAt(Replace(n, p, m), p) == Some(m)
    decreases |p|
  {
    if p != [] {
      match n
      case Split(_, _, _, _, left, right) =>
        if p[0] == Left {
          ReplaceShape(left, p[1..], m);
        } else {
          ReplaceShape(right, p[1..], m);
        }
    }
  }

  lemma {:induction false} ReplaceAllocated(n: Node, p: Path, m: Node)
    requires NodeAt(n, p).Some?
    ensures multiset(Allocated(Replace(n, p, m)))
      == multiset(Allocated(n)) - multiset(Allocated(NodeAt(n, p).value)) + multiset(Allocated(m))
    decreases |p|
  {
    if p != [] {
      match n
      case Split(_, _, _, _, left, right) =>
        var sub, mm := multiset(Allocated(NodeAt(n, p).value)), multiset(Allocated(m));
        var l, r := multiset(Allocated(left)), multiset(Allocated(right));
        assert multiset(Allocated(n)) == l + r;
        if p[0] == Left {
          ReplaceAllocated(left, p[1..], m);
          AllocatedInChild(left, p[1..]);
          assert multiset(Allocated(Replace(n, p, m))) == multiset(Allocated(Replace(left, p[1..], m))) + r;
          SwapInSum(l, r, sub, mm);
        } else {
          ReplaceAllocated(right, p[1..], m);
          AllocatedInChild(right, p[1..]);
          assert multiset(Allocated(Replace(n, p, m))) == l + multiset(Allocated(Replace(right, p[1..], m)));
          SwapInSum(r, l, sub, mm);
        }
    }
  }

  /** Swapping part of one summand swaps it in the sum. */
  lemma SwapInSum<T>(a: multiset<T>, b: multiset<T>, sub: multiset<T>, m: multiset<T>)
    requires sub <= a
    ensures (a - sub + m) + b == (a + b) - sub + m
    ensures b + (a - sub + m) == (b + a) - sub + m
  {
  }

  /** The occupied leaves below a path are part of the occupied leaves of the tree. */
  lemma {:induction false} AllocatedInChild(n: Node, p: Path)
    requires NodeAt(n, p).Some?
    ensures multiset(Allocated(NodeAt(n, p).value)) <= multiset(Allocated(n))
    decreases |p|
  {
    if p != [] {
      match n
      case Split(_, _, _, _, left, right) =>
        AllocatedInChild(if p[0] == Left then left else right, p[1..]);
    }
  }

  /** A node reached by a path lies inside its ancestor's range and is well formed. */
  lemma {:induction false} NodeAtInRange(n: Node, p: Path)
    requires Wf(n) && NodeAt(n, p).Some?
    ensures Wf(NodeAt(n, p).value)
    ensures n.offset <= NodeAt(n, p).value.offset
    ensures NodeAt(n, p).value.offset + NodeAt(n, p).value.size <= n.offset + n.size
    decreases |p|
  {
    if p != [] {
      match n
      case Split(_, _, _, _, left, right) =>
        NodeAtInRange(if p[0] == Left then left else right, p[1..]);
    }
  }

  /** `BuddyBlockMemoryAllocator`: the native memory object's handle, its memory-type index, its
      total size, the minimum subdivision size, the tree and the cached mapping. */
  datatype Heap = Heap(handle: nat, typeIndex: nat, size: nat, minSize: Pos, root: Node, mapping: Mapping.State)

  /** The heap's invariant: a well-formed tree whose root covers `[0, size)`. */
  predicate Valid(h: Heap) {
    Wf(h.root) && h.root.offset == 0 && h.root.size == h.size
  }

  /** The constructor: one FREE root leaf over the whole native memory object. */
  function Init(handle: nat, typeIndex: nat, minSize: Pos, totalSize: nat): (h: Heap)
    ensures Valid(h) && Allocated(h.root) == []
  {
    Heap(handle, typeIndex, totalSize, minSize, Leaf(0, totalSize, FREE, 0), Mapping.Unmapped)
  }

  /** The block at `p` is a leaf tagged `tag`, aligned for `alignment`, holding `req` bytes, and its
      usable range `[alignedOffset, alignedOffset + getSize())` lies inside `[0, size)`. */
  predicate Allocates(h: Heap, p: Path, tag: MemoryType, req: nat, alignment: Pos) {
    var m := NodeAt(h.root, p);
    && m.Some? && m.value.Leaf? && m.value.tag == tag
    && m.value.alignedOffset == AlignUp(m.value.offset, alignment)
    && UsableSize(m.value) >= req
    && m.value.offset <= m.value.alignedOffset
    && m.value.alignedOffset + UsableSize(m.value) <= h.size
  }

  /** `malloc(type, requirements)`: reclaim, search, and tag the chosen leaf. The heap is returned
      also on failure, because reclaiming and aligning free leaves on the way are kept. */
  function Malloc(h: Heap, tag: MemoryType, req: nat, alignment: Pos): (r: (Heap, Result<Path>))
    requires Valid(h) && IsUsage(tag)
    ensures Valid(r.0)
    ensures r.0 == h.(root := r.0.root)
    ensures r.0.handle == h.handle && r.0.typeIndex == h.typeIndex && r.0.size == h.size
    ensures r.1.Success? <==> FirstFit(Reclaim(h.root), req, alignment).Some?
    ensures r.1.Success? ==> FirstFit(Free(r.0, r.1.value).root, req, alignment) == Some(r.1.value)
    ensures r.1.Failure? ==> r.1.error == OutOfMemory && Allocated(r.0.root) == Allocated(h.root)
    ensures r.1.Success? ==> Allocates(r.0, r.1.value, tag, req, alignment)
    ensures r.1.Success? ==> Unsplittable(NodeAt(r.0.root, r.1.value).value, req, alignment, h.minSize)
    ensures r.1.Success? ==>
      multiset(Allocated(r.0.root)) == multiset(Allocated(h.root)) + multiset{NodeAt(r.0.root, r.1.value).value}
  {
    var root := Reclaim(h.root);
    var (root', found) := Sub(root, req, alignment, h.minSize);
    SubKeepsOccupied(root, req, alignment, h.minSize);
    match found
    case None => (h.(root := root'), Failure(OutOfMemory))
    case Some(p) =>
      var leaf := NodeAt(root', p).value;
      var block := Leaf(leaf.offset, leaf.size, tag, AlignUp(leaf.offset, alignment));
      ReplaceLemma(root', p, block);
      NodeAtInRange(Replace(root', p, block), p);
      UnsplittableRange(leaf, block, req, alignment, h.minSize);
      FreeUndoesTag(h.(root := Replace(root', p, block)), root', p, tag);
      (h.(root := Replace(root', p, block)), Success(p))
  }

  /** Freeing a leaf that was FREE and just tagged puts the very same leaf back. */
  lemma FreeUndoesTag(h: Heap, before: Node, p: Path, tag: MemoryType)
    requires Valid(h) && NodeAt(before, p).Some? && NodeAt(before, p).value.Leaf?
    requires NodeAt(before, p).value.tag == FREE
    requires var leaf := NodeAt(before, p).value;
      h.root == Replace(before, p, Leaf(leaf.offset, leaf.size, tag, leaf.alignedOffset))
    requires NodeAt(h.root, p) == Some(Leaf(NodeAt(before, p).value.offset, NodeAt(before, p).value.size, tag, NodeAt(before, p).value.alignedOffset))
    ensures Free(h, p).root == before
  {
    var leaf := NodeAt(before, p).value;
    ReplaceTwice(before, p, Leaf(leaf.offset, leaf.size, tag, leaf.alignedOffset), leaf);
    ReplaceSame(before, p);
  }

  /** `BuddyBlockMemoryBlock.free()` on the block at `p`: the node becomes a FREE leaf (its
      children, if any, are dropped); nothing is coalesced until the next `reclaim`. */
  function Free(h: Heap, p: Path): (r: Heap)
    requires Valid(h)
    ensures Valid(r)
    ensures r == h.(root := r.root)
    ensures r.handle == h.handle && r.typeIndex == h.typeIndex && r.size == h.size
    ensures NodeAt(h.root, p).None? ==> r == h
    ensures NodeAt(h.root, p).Some? ==>
      && NodeAt(r.root, p).Some? && NodeAt(r.root, p).value.Leaf? && NodeAt(r.root, p).value.tag == FREE
      && multiset(Allocated(r.root)) == multiset(Allocated(h.root)) - multiset(Allocated(NodeAt(h.root, p).value))
  {
    match NodeAt(h.root, p)
    case None => h
    case Some(n) =>
      var freed := Leaf(n.offset, n.size, FREE, n.alignedOffset);
      NodeAtInRange(h.root, p);
      ReplaceLemma(h.root, p, freed);
      h.(root := Replace(h.root, p, freed))
  }

  /** `isEmpty()`: reclaim, then test whether the root is FREE. That holds exactly when no leaf is
      occupied; reclaiming changes no occupied leaf. */
  function IsEmpty(h: Heap): (r: (Heap, bool))
    requires Valid(h)
    ensures Valid(r.0)
    ensures r.0 == h.(root := r.0.root)
    ensures r.0.handle == h.handle && r.0.typeIndex == h.typeIndex && r.0.size == h.size
    ensures Allocated(r.0.root) == Allocated(h.root)
    ensures r.1 <==> Allocated(h.root) == []
  {
    var root := Reclaim(h.root);
    CollapsedRootMeaning(root);
    (h.(root := root), root.tag == FREE)
  }

  /** In a collapsed well-formed tree the root is FREE exactly when no leaf is occupied. */
  lemma {:induction false} CollapsedRootMeaning(n: Node)
    requires Wf(n) && Collapsed(n)
    ensures n.tag == FREE <==> Allocated(n) == []
  {
    match n
    case Leaf(_, _, _, _) =>
    case Split(_, _, _, _, left, right) =>
      CollapsedRootMeaning(left);
      CollapsedRootMeaning(right);
  }

  lemma IsEmptyIdempotent(h: Heap)
    requires Valid(h)
    ensures IsEmpty(IsEmpty(h).0) == IsEmpty(h)
  {
    ReclaimIdempotent(h.root);
  }

  predicate InRange(blocks: seq<Node>, lo: int, hi: int) {
    forall i :: 0 <= i < |blocks| ==> lo <= blocks[i].offset && blocks[i].offset + blocks[i].size <= hi
  }

  /** Each block ends at or before the next one starts: pairwise disjoint, in address order. */
  predicate Ordered(blocks: seq<Node>) {
    forall i, j :: 0 <= i < j < |blocks| ==> blocks[i].offset + blocks[i].size <= blocks[j].offset
  }

  /** The occupied leaves of a well-formed tree are IMAGE or BUFFER leaves inside the node's
      range, pairwise disjoint, and each one's aligned offset lies inside its own range start. */
  lemma {:induction false} AllocatedDisjoint(n: Node)
    requires Wf(n)
    ensures InRange(Allocated(n), n.offset, n.offset + n.size)
    ensures Ordered(Allocated(n))
    ensures forall i :: 0 <= i < |Allocated(n)| ==>
      IsUsage(Allocated(n)[i].tag) && Allocated(n)[i].offset <= Allocated(n)[i].alignedOffset
  {
    match n
    case Leaf(_, _, _, _) =>
    case Split(_, _, _, _, left, right) =>
      AllocatedDisjoint(left);
      AllocatedDisjoint(right);
      var a: seq<Node>, b: seq<Node> := Allocated(left), Allocated(right);
      assert Allocated(n) == a + b;
      forall i, j | 0 <= i < j < |a + b|
        ensures (a + b)[i].offset + (a + b)[i].size <= (a + b)[j].offset
      {
        if j < |a| {
          assert (a + b)[i] == a[i] && (a + b)[j] == a[j];
        } else if i >= |a| {
          assert (a + b)[i] == b[i - |a|] && (a + b)[j] == b[j - |a|];
        } else {
          assert (a + b)[i] == a[i] && (a + b)[j] == b[j - |a|];
        }
      }
  }

  /** In every valid heap, the allocated blocks are disjoint and inside `[0, size)`: malloc, free
      and isEmpty all keep the heap valid, so this holds after any sequence of them. */
  lemma ValidHeapNoOverlap(h: Heap)
    requires Valid(h)
    ensures InRange(Allocated(h.root), 0, h.size)
    ensures Ordered(Allocated(h.root))
  {
    AllocatedDisjoint(h.root);
  }

  /** The reference search finds a leaf exactly when some leaf fits, and what it finds fits. */
  lemma FirstFitMeaning(n: Node, req: nat, alignment: Pos)
    ensures FirstFit(n, req, alignment).Some? <==>
      exists i :: 0 <= i < |Leaves(n)| && Fits(Leaves(n)[i], req, alignment)
    ensures FirstFit(n, req, alignment).Some? ==>
      var m := NodeAt(n, FirstFit(n, req, alignment).value);
      m.Some? && Fits(m.value, req, alignment)
  {
    FirstFitExists(n, req, alignment);
    FirstFitSound(n, req, alignment);
  }

  lemma {:induction false} FirstFitExists(n: Node, req: nat, alignment: Pos)
    ensures FirstFit(n, req, alignment).Some? <==>
      exists i :: 0 <= i < |Leaves(n)| && Fits(Leaves(n)[i], req, alignment)
  {
    match n
    case Leaf(_, _, _, _) =>
      assert Leaves(n)[0] == n;
    case Split(_, _, _, _, left, right) =>
      FirstFitExists(left, req, alignment);
      FirstFitExists(right, req, alignment);
      var a := Leaves(left);
      var b := Leaves(right);
      assert Leaves(n) == a + b;
      if FirstFit(left, req, alignment).Some? {
        var i :| 0 <= i < |a| && Fits(a[i], req, alignment);
        assert (a + b)[i] == a[i];
        assert Fits(Leaves(n)[i], req, alignment);
      } else if FirstFit(right, req, alignment).Some? {
        var j :| 0 <= j < |b| && Fits(b[j], req, alignment);
        var w := |a| + j;
        assert (a + b)[w] == b[j];
        assert 0 <= w < |Leaves(n)| && Fits(Leaves(n)[w], req, alignment);
      } else {
        forall k | 0 <= k < |a|
          ensures !Fits(a[k], req, alignment)
        {
          assert !(0 <= k < |Leaves(left)| && Fits(Leaves(left)[k], req, alignment));
        }
        forall k | 0 <= k < |b|
          ensures !Fits(b[k], req, alignment)
        {
          assert !(0 <= k < |Leaves(right)| && Fits(Leaves(right)[k], req, alignment));
        }
        NoneFits(a, b, req, alignment);
      }
  }

  lemma {:induction false} FirstFitSound(n: Node, req: nat, alignment: Pos)
    ensures FirstFit(n, req, alignment).Some? ==>
      var m := NodeAt(n, FirstFit(n, req, alignment).value);
      m.Some? && Fits(m.value, req, alignment)
  {
    match n
    case Leaf(_, _, _, _) =>
    case Split(_, _, _, _, left, right) =>
      if FirstFit(left, req, alignment).Some? {
        FirstFitSound(left, req, alignment);
        var p := FirstFit(left, req, alignment).value;
        assert ([Left] + p)[1..] == p;
        assert NodeAt(n, [Left] + p) == NodeAt(left, p);
      } else if FirstFit(right, req, alignment).Some? {
        FirstFitSound(right, req, alignment);
        var p := FirstFit(right, req, alignment).value;
        assert ([Right] + p)[1..] == p;
        assert NodeAt(n, [Right] + p) == NodeAt(right, p);
      }
  }

  lemma NoneFits(a: seq<Node>, b: seq<Node>, req: nat, alignment: Pos)
    requires forall k :: 0 <= k < |a| ==> !Fits(a[k], req, alignment)
    requires forall k :: 0 <= k < |b| ==> !Fits(b[k], req, alignment)
    ensures forall k :: 0 <= k < |a + b| ==> !Fits((a + b)[k], req, alignment)
  {
    forall k | 0 <= k < |a + b|
      ensures !Fits((a + b)[k], req, alignment)
    {
      if k < |a| {
        assert (a + b)[k] == a[k];
      } else {
        assert (a + b)[k] == b[k - |a|];
      }
    }
  }

  /** Malloc throws OutOfMemory exactly when, after reclaiming, no FREE leaf holds the request
      once aligned; on success the chosen block lies inside the first such leaf from the left. */
  lemma MallocSearch(h: Heap, tag: MemoryType, req: nat, alignment: Pos)
    requires Valid(h) && IsUsage(tag)
    ensures var leaves := Leaves(Reclaim(h.root));
      Malloc(h, tag, req, alignment).1.Failure? <==>
        forall i :: 0 <= i < |leaves| ==> !Fits(leaves[i], req, alignment)
    ensures Malloc(h, tag, req, alignment).1.Success? ==>
      FirstFit(Reclaim(h.root), req, alignment).value <= Malloc(h, tag, req, alignment).1.value
  {
    var root := Reclaim(h.root);
    FirstFitMeaning(root, req, alignment);
    SubFollowsFirstFit(root, req, alignment, h.minSize);
  }

  lemma {:induction false} ReplaceTwice(n: Node, p: Path, a: Node, b: Node)
    requires NodeAt(n, p).Some?
    ensures Replace(Replace(n, p, a), p, b) == Replace(n, p, b)
    decreases |p|
  {
    if p != [] {
      match n
      case Split(_, _, _, _, left, right) =>
        if p[0] == Left {
          ReplaceTwice(left, p[1..], a, b);
        } else {
          ReplaceTwice(right, p[1..], a, b);
        }
    }
  }

  lemma {:induction false} ReplaceSame(n: Node, p: Path)
    requires NodeAt(n, p).Some?
    ensures Replace(n, p, NodeAt(n, p).value) == n
    decreases |p|
  {
    if p != [] {
      match n
      case Split(_, _, _, _, left, right) =>
        if p[0] == Left {
          ReplaceSame(left, p[1..]);
        } else {
          ReplaceSame(right, p[1..]);
        }
    }
  }

  /** Malloc followed by free of the returned block restores the occupied leaves, so emptiness is
      restored too. */
  lemma MallocFreeRestores(h: Heap, tag: MemoryType, req: nat, alignment: Pos)
    requires Valid(h) && IsUsage(tag)
    requires Malloc(h, tag, req, alignment).1.Success?
    ensures var (h1, r) := Malloc(h, tag, req, alignment);
      && multiset(Allocated(Free(h1, r.value).root)) == multiset(Allocated(h.root))
      && IsEmpty(Free(h1, r.value)).1 == IsEmpty(h).1
  {
    var (h1, r) := Malloc(h, tag, req, alignment);
    FreeCancelsTag(h, h1, r.value, tag);
  }

  /** Freeing the one leaf a malloc added takes the occupied leaves back to where they were. */
  lemma FreeCancelsTag(h: Heap, h1: Heap, p: Path, tag: MemoryType)
    requires Valid(h) && Valid(h1) && IsUsage(tag)
    requires NodeAt(h1.root, p).Some? && NodeAt(h1.root, p).value.Leaf? && NodeAt(h1.root, p).value.tag == tag
    requires multiset(Allocated(h1.root)) == multiset(Allocated(h.root)) + multiset{NodeAt(h1.root, p).value}
    ensures multiset(Allocated(Free(h1, p).root)) == multiset(Allocated(h.root))
    ensures IsEmpty(Free(h1, p)).1 == IsEmpty(h).1
  {
    var h2 := Free(h1, p);
    var m := NodeAt(h1.root, p).value;
    assert Allocated(m) == [m];
    var before := multiset(Allocated(h.root));
    assert multiset(Allocated(h2.root)) == before + multiset{m} - multiset{m};
    assert before + multiset{m} - multiset{m} == before;
    SameMultisetSameEmptiness(Allocated(h2.root), Allocated(h.root));
  }

  lemma SameMultisetSameEmptiness<T>(a: seq<T>, b: seq<T>)
    requires multiset(a) == multiset(b)
    ensures a == [] <==> b == []
  {
    assert |a| == |multiset(a)| == |multiset(b)| == |b|;
  }

  /** A fresh heap serves any request up to its size; one malloc, its free and `isEmpty` collapse
      the tree back to the single FREE root the constructor built. */
  lemma FreshRoundTrip(handle: nat, typeIndex: nat, minSize: Pos, totalSize: nat, tag: MemoryType, req: nat, alignment: Pos)
    requires IsUsage(tag)
    ensures var h := Init(handle, typeIndex, minSize, totalSize);
      var (h1, r) := Malloc(h, tag, req, alignment);
      && (r.Success? <==> req <= totalSize)
      && (r.Success? ==> IsEmpty(Free(h1, r.value)) == (h, true))
  {
    var h := Init(handle, typeIndex, minSize, totalSize);
    AlignUpOfMultiple(0, alignment);
    assert Reclaim(h.root) == h.root;
    var (t, found) := Sub(h.root, req, alignment, minSize);
    assert (t, found) == SubFree(0, totalSize, req, alignment, minSize);
    var (h1, r) := Malloc(h, tag, req, alignment);
    if r.Success? {
      var p := r.value;
      var leaf := NodeAt(t, p).value;
      var block := Leaf(leaf.offset, leaf.size, tag, AlignUp(leaf.offset, alignment));
      assert h1.root == Replace(t, p, block);
      ReplaceShape(t, p, block);
      ReplaceTwice(t, p, block, leaf);
      ReplaceSame(t, p);
      assert Free(h1, p).root == t;
    }
  }

  /** `map()` on a block of this heap: the whole heap is mapped through its cached mapping (the
      block's own window is a slice of it); nothing but the mapping changes. */
  function Map(h: Heap): (r: (Heap, bool))
    ensures r.0 == h.(mapping := r.0.mapping)
    ensures r.0.mapping.mapped && r.0.mapping.count == h.mapping.count + 1
    ensures r.1 <==> !h.mapping.mapped
  {
    var (m, native) := Mapping.Map(h.mapping);
    (h.(mapping := m), native)
  }

  /** `unmap()` on a block of this heap: the native unmap happens when the last outstanding map
      is undone; nothing but the mapping changes. */
  function Unmap(h: Heap): (r: (Heap, bool))
    ensures r.0 == h.(mapping := r.0.mapping)
    ensures r.0.mapping.count == h.mapping.count - 1
    ensures r.1 <==> h.mapping.count == 1
  {
    var (m, native) := Mapping.Unmap(h.mapping);
    (h.(mapping := m), native)
  }

  /** Unmapping a block right after mapping it restores the heap, and issues the native unmap
      exactly when the map issued the native map. */
  lemma MapUnmap(h: Heap)
    requires Mapping.Consistent(h.mapping)
    ensures Unmap(Map(h).0) == (h, Map(h).1)
  {
    Mapping.MapThenUnmap(h.mapping);
  }
}

=== FILE: linear.dfy ===
/** The linear heap (LinearMemoryAllocator.java): a bump allocator. Each malloc takes the next
    `alignedSize` bytes at the pointer; when the previous block's usage conflicts with the new
    one the size is further rounded up to the buffer-image granularity (`pageSize`). Blocks are
    never given back individually. */
module Linear {
  import opened Wrappers
  import opened MemoryTypes
  import opened Alignment
  import Mapping

  datatype Heap = Heap(handle: nat, typeIndex: nat, size: nat, pageSize: Pos, pointer: nat, lastType: MemoryType, mapping: Mapping.State)

  /** `LinearMemoryBlock`: offset and size of a handed-out range. */
  datatype Block = Block(offset: nat, size: nat)

  /** The constructor: pointer at 0, no previous usage. */
  function Init(handle: nat, typeIndex: nat, size: nat, pageSize: Pos): (h: Heap)
    ensures h.size == size && h.pageSize == pageSize
    ensures h.pointer == 0 && h.lastType == FREE
    ensures h.mapping == Mapping.Unmapped
  {
    Heap(handle, typeIndex, size, pageSize, 0, FREE, Mapping.Unmapped)
  }

  /** The size a request occupies: the request rounded up to its alignment, and further to the
      granularity when the previous block's usage conflicts with this one. */
  function PaddedSize(h: Heap, tag: MemoryType, req: nat, alignment: Pos): (n: nat)
    ensures req <= n
    ensures Conflicts(h.lastType, tag) ==> n % h.pageSize == 0
    ensures Conflicts(h.lastType, tag) ==> AlignUp(req, alignment) <= n < AlignUp(req, alignment) + h.pageSize
    ensures !Conflicts(h.lastType, tag) ==> n == AlignUp(req, alignment)
  {
    var aligned := AlignUp(req, alignment);
    if Conflicts(h.lastType, tag) then AlignUp(aligned, h.pageSize) else aligned
  }

  /** `malloc(type, memReqs)` as written: `OutOfMemory` when `pageSize + alignedSize` exceeds
      `pointer + size`; otherwise the block starts at the pointer, which moves past it. */
  function Malloc(h: Heap, tag: MemoryType, req: nat, alignment: Pos): (r: (Heap, Result<Block>))
    ensures r.1.Failure? <==> h.pageSize + PaddedSize(h, tag, req, alignment) > h.pointer + h.size
    ensures r.1.Failure? ==> r.1.error == OutOfMemory && r.0 == h
    ensures r.1.Success? ==>
      && r.1.value.offset == h.pointer
      && r.1.value.size == PaddedSize(h, tag, req, alignment)
      && req <= r.1.value.size
      && r.0 == h.(pointer := r.1.value.offset + r.1.value.size, lastType := tag)
  {
    var padded := PaddedSize(h, tag, req, alignment);
    if h.pageSize + padded > h.pointer + h.size then (h, Failure(OutOfMemory))
    else (h.(lastType := tag, pointer := h.pointer + padded), Success(Block(h.pointer, padded)))
  }

  /** `isEmpty()`: nothing was ever handed out, i.e. the pointer is still at 0. */
  predicate IsEmpty(h: Heap) {
    h.pointer == 0
  }

  /** Successive blocks are contiguous and so never overlap: the second starts where the first
      ends. */
  lemma MallocContiguous(h: Heap, t1: MemoryType, req1: nat, a1: Pos, t2: MemoryType, req2: nat, a2: Pos)
    requires Malloc(h, t1, req1, a1).1.Success?
    requires Malloc(Malloc(h, t1, req1, a1).0, t2, req2, a2).1.Success?
    ensures var (h1, b1) := Malloc(h, t1, req1, a1);
      var b2 := Malloc(h1, t2, req2, a2).1.value;
      b1.value.offset + b1.value.size == b2.offset
  {
  }

  /** A fresh heap is empty, and a successful malloc of a non-empty request leaves it non-empty
      for good: nothing moves the pointer back. */
  lemma EmptinessTracksPointer(h: Heap, tag: MemoryType, req: nat, alignment: Pos)
    ensures IsEmpty(Init(h.handle, h.typeIndex, h.size, h.pageSize))
    ensures Malloc(h, tag, req, alignment).0.pointer >= h.pointer
    ensures req > 0 && Malloc(h, tag, req, alignment).1.Success? ==> !IsEmpty(Malloc(h, tag, req, alignment).0)
  {
  }

  /** A buffer after an image (or the reverse) is padded to a multiple of the granularity; the
      same usage twice in a row is not. */
  lemma GranularityPadding(h: Heap, req: nat, alignment: Pos)
    requires h.lastType == IMAGE
    ensures PaddedSize(h, BUFFER, req, alignment) % h.pageSize == 0
    ensures PaddedSize(h, IMAGE, req, alignment) == AlignUp(req, alignment)
  {
  }

  /** The bound test as written lets a block run past the end of the heap: with 1024 bytes and
      the pointer at 1000, a 100-byte request passes (`1 + 100 <= 1000 + 1024`) and is handed
      `[1000, 1100)`. */
  lemma OverrunExample()
    ensures var h := Heap(0, 0, 1024, 1, 1000, BUFFER, Mapping.Unmapped);
      var (h1, res) := Malloc(h, BUFFER, 100, 1);
      res.Success? && res.value.offset + res.value.size > h.size
  {
    var h := Heap(0, 0, 1024, 1, 1000, BUFFER, Mapping.Unmapped);
    AlignUpOfMultiple(100, 1);
  }

  /** The block starts at the pointer whatever the alignment asks: after a 1-byte request on a
      fresh 1024-byte heap, any request of `a` bytes aligned to `a` (1 < a <= 1024) is handed
      offset 1, which is not a multiple of `a`. */
  lemma MisalignedExample(a: Pos)
    requires 1 < a <= 1024
    ensures Malloc(Init(0, 0, 1024, 1), BUFFER, 1, 1).0 == AfterOneByte()
    ensures Malloc(AfterOneByte(), BUFFER, a, a).1 == Success(Block(1, a))
    ensures 1 % a != 0
  {
    FirstByte();
    SecondRequest(a);
    DivModUnique(1, 0, 1, a);
  }

  lemma SecondRequest(a: Pos)
    requires 1 < a <= 1024
    ensures Malloc(AfterOneByte(), BUFFER, a, a).1 == Success(Block(1, a))
  {
    DivModUnique(a, 1, 0, a);
    AlignUpOfMultiple(a, a);
    SameUsageAtPointer(AfterOneByte(), BUFFER, a, a);
  }

  /** The heap of the misalignment example after its first request. */
  function AfterOneByte(): (h: Heap)
    ensures h.pointer == 1 && h.lastType == BUFFER
  {
    Heap(0, 0, 1024, 1, 1, BUFFER, Mapping.Unmapped)
  }

  lemma FirstByte()
    ensures Malloc(Init(0, 0, 1024, 1), BUFFER, 1, 1).0 == AfterOneByte()
  {
    AlignUpOfMultiple(1, 1);
  }

  /** Without a usage conflict and with room, the block is the aligned request at the pointer. */
  lemma SameUsageAtPointer(h: Heap, tag: MemoryType, req: nat, alignment: Pos)
    requires !Conflicts(h.lastType, tag)
    requires h.pageSize + AlignUp(req, alignment) <= h.pointer + h.size
    ensures Malloc(h, tag, req, alignment).1 == Success(Block(h.pointer, AlignUp(req, alignment)))
  {
  }

  /** The bump allocation as evidently intended: the block starts at the pointer rounded up to
      the alignment, and the request fails when the block would end past the heap. */
  function MallocChecked(h: Heap, tag: MemoryType, req: nat, alignment: Pos): (r: (Heap, Result<Block>))
    ensures r.1.Failure? <==> AlignUp(h.pointer, alignment) + PaddedSize(h, tag, req, alignment) > h.size
    ensures r.1.Failure? ==> r.1.error == OutOfMemory && r.0 == h
    ensures r.1.Success? ==>
      && h.pointer <= r.1.value.offset
      && r.1.value.offset % alignment == 0
      && req <= r.1.value.size
      && r.1.value.offset + r.1.value.size <= h.size
      && r.0 == h.(pointer := r.1.value.offset + r.1.value.size, lastType := tag)
  {
    var padded := PaddedSize(h, tag, req, alignment);
    var start := AlignUp(h.pointer, alignment);
    if start + padded > h.size then (h, Failure(OutOfMemory))
    else (h.(lastType := tag, pointer := start + padded), Success(Block(start, padded)))
  }

  /** With the corrected bound the pointer never passes the end of the heap, so every block of
      a run of allocations lies inside the heap and after every earlier block. */
  lemma MallocCheckedStaysInside(h: Heap, tag: MemoryType, req: nat, alignment: Pos)
    requires h.pointer <= h.size
    ensures MallocChecked(h, tag, req, alignment).0.pointer <= h.size
    ensures MallocChecked(h, tag, req, alignment).0.pointer >= h.pointer
  {
  }

  /** `map()` on a block of this heap: the whole heap is mapped through its cached mapping (the
      block's own window is a slice of it); nothing but the mapping changes. */
  function Map(h: Heap): (r: (Heap, bool))
    ensures r.0 == h.(mapping := r.0.mapping)
    ensures r.0.mapping.mapped && r.0.mapping.count == h.mapping.count + 1
    ensures r.1 <==> !h.mapping.mapped
  {
    var (m, native) := Mapping.Map(h.mapping);
    (h.(mapping := m), native)
  }

  /** `unmap()` on a block of this heap: the native unmap happens when the last outstanding map
      is undone; nothing but the mapping changes. */
  function Unmap(h: Heap): (r: (Heap, bool))
    ensures r.0 == h.(mapping := r.0.mapping)
    ensures r.0.mapping.count == h.mapping.count - 1
    ensures r.1 <==> h.mapping.count == 1
  {
    var (m, native) := Mapping.Unmap(h.mapping);
    (h.(mapping := m), native)
  }

  /** Unmapping a block right after mapping it restores the heap, and issues the native unmap
      exactly when the map issued the native map. */
  lemma MapUnmap(h: Heap)
    requires Mapping.Consistent(h.mapping)
    ensures Unmap(Map(h).0) == (h, Map(h).1)
  {
    Mapping.MapThenUnmap(h.mapping);
  }
}

=== FILE: manager.dfy ===
/** The memory manager (MemoryManager.java): picks a memory type for a request, routes it by
    size to a unique heap (large), a pool of slab heaps (small) or a pool of buddy heaps
    (standard), grows a pool by one new heap when none of its heaps of that memory type serves
    the request, and releases empty pool heaps on garbage collection. Native handles of new
    memory objects come from the driver; they are drawn here from a counter in the state. */
module Manager {
  import opened Wrappers
  import opened MemoryTypes
  import opened Alignment
  import Slab
  import Buddy
  import Unique

  const LargeAllocThreshold: nat := 128 * 1024 * 1024
  const SmallAllocThreshold: nat := 32 * 1024
  const StandardBufferHeapSize: nat := 128 * 1024 * 1024
  const StandardImageHeapSize: nat := 256 * 1024 * 1024
  const MinimumBufferSubdivSize: Pos := 4 * 1024
  const MinimumImageSubdivSize: Pos := 4 * 1024
  const SmallHeapSizes: seq<Slab.SizeInfo> := [
    Slab.SizeInfo(4 * 1024, 256),
    Slab.SizeInfo(8 * 1024, 128),
    Slab.SizeInfo(16 * 1024, 64),
    Slab.SizeInfo(32 * 1024, 32)]

  /** A heap of the small (slab) or standard (buddy) pools. */
  datatype PoolHeap = SlabHeap(slab: Slab.Heap) | BuddyHeap(buddy: Buddy.Heap)

  /** Where a handed-out block lives inside its heap. */
  datatype Place = InUnique | InSlab(sizeClass: nat, slot: nat) | InBuddy(path: Buddy.Path)

  /** `MemoryBlock`: `getHandle()`, `getOffset()`, `getSize()`, and where the block lives. */
  datatype Block = Block(handle: nat, offset: int, size: int, place: Place)

  function TypeIndexOf(h: PoolHeap): nat {
    match h
    case SlabHeap(s) => s.typeIndex
    case BuddyHeap(b) => b.typeIndex
  }

  function HandleOf(h: PoolHeap): nat {
    match h
    case SlabHeap(s) => s.handle
    case BuddyHeap(b) => b.handle
  }

  predicate HeapValid(h: PoolHeap) {
    h.BuddyHeap? ==> Buddy.Valid(h.buddy)
  }

  /** Both heaps are the same kind of allocator over the same memory object and memory type. */
  predicate SameHeap(a: PoolHeap, b: PoolHeap) {
    && a.SlabHeap? == b.SlabHeap?
    && TypeIndexOf(a) == TypeIndexOf(b)
    && HandleOf(a) == HandleOf(b)
  }

  /** Both heaps have the same blocks in use: the same occupied buddy leaves, or the same slab
      slots with the same tags. */
  predicate SameBlocks(a: PoolHeap, b: PoolHeap) {
    match a
    case SlabHeap(s) => b.SlabHeap? && Slab.SameTags(s, b.slab)
    case BuddyHeap(x) => b.BuddyHeap? && Buddy.Allocated(x.root) == Buddy.Allocated(b.buddy.root)
  }

  /** `b` is `a` with exactly one more block in use, the one at `place`, for usage `tag`: a buddy
      heap's occupied leaves grow by that leaf; a slab heap's slot turns from FREE to `tag` while
      every other slot keeps its tag. */
  predicate GrowsBy(a: PoolHeap, b: PoolHeap, place: Place, tag: MemoryType) {
    match a
    case SlabHeap(s) =>
      && b.SlabHeap? && place.InSlab?
      && var t := b.slab;
      && |s.lists| == |t.lists|
      && (forall i | 0 <= i < |s.lists| :: |s.lists[i].slots| == |t.lists[i].slots|)
      && Slab.ValidSlot(s.lists, place.sizeClass, place.slot)
      && s.lists[place.sizeClass].slots[place.slot].tag == FREE
      && t.lists[place.sizeClass].slots[place.slot].tag == tag
      && (forall i, j | 0 <= i < |s.lists| && 0 <= j < |s.lists[i].slots| && (i, j) != (place.sizeClass, place.slot) ::
            s.lists[i].slots[j].tag == t.lists[i].slots[j].tag)
    case BuddyHeap(x) =>
      && b.BuddyHeap? && place.InBuddy?
      && var y := b.buddy;
      && Buddy.NodeAt(y.root, place.path).Some?
      && Buddy.NodeAt(y.root, place.path).value.Leaf?
      && Buddy.NodeAt(y.root, place.path).value.tag == tag
      && multiset(Buddy.Allocated(y.root)) == multiset(Buddy.Allocated(x.root)) + multiset{Buddy.NodeAt(y.root, place.path).value}
  }

  /** `malloc` on a pool heap. */
  function HeapMalloc(h: PoolHeap, tag: MemoryType, req: nat, alignment: Pos): (r: (PoolHeap, Result<Block>))
    requires HeapValid(h) && IsUsage(tag)
    ensures HeapValid(r.0) && SameHeap(h, r.0)
    ensures r.1.Failure? ==> r.1.error == OutOfMemory && SameBlocks(h, r.0)
    ensures r.1.Success? ==>
      && r.1.value.handle == HandleOf(h)
      && r.1.value.offset % alignment == 0
      && r.1.value.size >= req
      && (h.SlabHeap? ==> r.1.value.place.InSlab?)
      && (h.BuddyHeap? ==> r.1.value.place.InBuddy?)
  {
    match h
    case SlabHeap(s) =>
      var (s1, res) := Slab.Malloc(s, tag, req, alignment);
      Slab.MallocSpec(s, tag, req, alignment);
      (SlabHeap(s1), match res
        case Failure(e) => Failure(e)
        case Success(loc) =>
          var slot := s1.lists[loc.0].slots[loc.1];
          Success(Block(s1.handle, slot.alignedOffset, Slab.UsableSize(slot), InSlab(loc.0, loc.1))))
    case BuddyHeap(b) =>
      var (b1, res) := Buddy.Malloc(b, tag, req, alignment);
      (BuddyHeap(b1), match res
        case Failure(e) => Failure(e)
        case Success(p) =>
          var node := Buddy.NodeAt(b1.root, p).value;
          Success(Block(b1.handle, node.alignedOffset, Buddy.UsableSize(node), InBuddy(p))))
  }

  /** A successful malloc on a pool heap puts exactly the block it hands out in use. */
  lemma HeapMallocGrows(h: PoolHeap, tag: MemoryType, req: nat, alignment: Pos)
    requires HeapValid(h) && IsUsage(tag)
    ensures var (h1, res) := HeapMalloc(h, tag, req, alignment);
      res.Success? ==> GrowsBy(h, h1, res.value.place, tag)
  {
    match h
    case SlabHeap(s) => Slab.MallocSpec(s, tag, req, alignment);
    case BuddyHeap(b) =>
  }

  /** Some block of the heap is in use. */
  predicate Occupied(h: PoolHeap) {
    match h
    case SlabHeap(s) => !Slab.IsEmpty(s)
    case BuddyHeap(b) => Buddy.Allocated(b.root) != []
  }

  /** `isEmpty()` on a pool heap; a buddy heap reclaims its tree on the way, which changes no
      block in use. */
  function HeapIsEmpty(h: PoolHeap): (r: (PoolHeap, bool))
    requires HeapValid(h)
    ensures HeapValid(r.0) && SameHeap(h, r.0) && SameBlocks(h, r.0)
    ensures r.1 <==> !Occupied(h)
    ensures Occupied(r.0) == Occupied(h)
    ensures h.SlabHeap? ==> r.0 == h
  {
    match h
    case SlabHeap(s) => (h, Slab.IsEmpty(s))
    case BuddyHeap(b) =>
      var (b1, empty) := Buddy.IsEmpty(b);
      (BuddyHeap(b1), empty)
  }

  predicate AllValid(heaps: seq<PoolHeap>) {
    forall k :: 0 <= k < |heaps| ==> HeapValid(heaps[k])
  }

  /** The heaps are the same ones, position by position. */
  predicate SameHeaps(a: seq<PoolHeap>, b: seq<PoolHeap>) {
    |a| == |b| && forall k :: 0 <= k < |a| ==> SameHeap(a[k], b[k])
  }

  /** The try-each-heap loop of `allocate` from position `i` on: heaps of another memory type are
      skipped; the first heap of the type whose malloc succeeds serves the request; a failing
      malloc (OutOfMemory) moves on, keeping what that malloc changed in its heap. */
  function TryHeaps(heaps: seq<PoolHeap>, i: nat, index: nat, tag: MemoryType, req: nat, alignment: Pos): (r: (seq<PoolHeap>, Option<(nat, Block)>))
    requires i <= |heaps| && AllValid(heaps) && IsUsage(tag)
    decreases |heaps| - i
    ensures AllValid(r.0) && SameHeaps(heaps, r.0)
    ensures forall k :: 0 <= k < |heaps| ==>
      r.0[k] == if i <= k && TypeIndexOf(heaps[k]) == index && (r.1.None? || k <= r.1.value.0)
        then HeapMalloc(heaps[k], tag, req, alignment).0 else heaps[k]
    ensures r.1.Some? ==>
      var (k, b) := r.1.value;
      && i <= k < |heaps|
      && TypeIndexOf(heaps[k]) == index
      && HeapMalloc(heaps[k], tag, req, alignment).1 == Success(b)
    ensures forall k :: i <= k < |heaps| && TypeIndexOf(heaps[k]) == index && (r.1.None? || k < r.1.value.0) ==>
      HeapMalloc(heaps[k], tag, req, alignment).1.Failure?
  {
    if i == |heaps| then (heaps, None)
    else if TypeIndexOf(heaps[i]) != index then TryHeaps(heaps, i + 1, index, tag, req, alignment)
    else
      var (h1, res) := HeapMalloc(heaps[i], tag, req, alignment);
      if res.Success? then (heaps[i := h1], Some((i, res.value)))
      else
        TryHeaps(heaps[i := h1], i + 1, index, tag, req, alignment)
  }

  /** The loop comes out empty-handed exactly when every heap of the type fails. */
  lemma TryHeapsFails(heaps: seq<PoolHeap>, i: nat, index: nat, tag: MemoryType, req: nat, alignment: Pos)
    requires i <= |heaps| && AllValid(heaps) && IsUsage(tag)
    ensures TryHeaps(heaps, i, index, tag, req, alignment).1.None? <==>
      forall k :: i <= k < |heaps| && TypeIndexOf(heaps[k]) == index ==> HeapMalloc(heaps[k], tag, req, alignment).1.Failure?
  {
  }

  /** Block `b` comes from heap `h` of memory type `index`. */
  predicate ServedBy(h: PoolHeap, index: nat, b: Block) {
    && TypeIndexOf(h) == index && HandleOf(h) == b.handle
    && (h.SlabHeap? ==> b.place.InSlab?) && (h.BuddyHeap? ==> b.place.InBuddy?)
  }

  /** Every heap the loop does not serve from keeps its blocks in use: the failing ones because a
      failed malloc adds none, the rest because the loop leaves them alone. */
  lemma TryHeapsKeepsBlocks(heaps: seq<PoolHeap>, index: nat, tag: MemoryType, req: nat, alignment: Pos)
    requires AllValid(heaps) && IsUsage(tag)
    ensures var (heaps1, found) := TryHeaps(heaps, 0, index, tag, req, alignment);
      forall k :: 0 <= k < |heaps| && (found.None? || k != found.value.0) ==> SameBlocks(heaps[k], heaps1[k])
  {
    var (heaps1, found) := TryHeaps(heaps, 0, index, tag, req, alignment);
    forall k | 0 <= k < |heaps| && (found.None? || k != found.value.0)
      ensures SameBlocks(heaps[k], heaps1[k])
    {
      if TypeIndexOf(heaps[k]) == index && (found.None? || k <= found.value.0) {
        assert heaps1[k] == HeapMalloc(heaps[k], tag, req, alignment).0;
      } else {
        assert heaps1[k] == heaps[k];
      }
    }
  }

  /** Block `b` of the grown pool `after` comes from position `k`: the first heap of memory type
      `index` in `before` whose malloc succeeds, or the added heap `added` when none does. That
      heap gains exactly the block; every other heap of `before` keeps its blocks in use. */
  predicate ServedFirstAt(before: seq<PoolHeap>, added: PoolHeap, after: seq<PoolHeap>, k: nat, index: nat, tag: MemoryType, req: nat, alignment: Pos, b: Block)
    requires AllValid(before) && IsUsage(tag)
  {
    && |before| <= |after| && k < |after| && k <= |before|
    && ServedBy(after[k], index, b)
    && GrowsBy(if k < |before| then before[k] else added, after[k], b.place, tag)
    && (forall k2 :: 0 <= k2 < k && TypeIndexOf(before[k2]) == index ==> HeapMalloc(before[k2], tag, req, alignment).1.Failure?)
    && (forall k2 :: 0 <= k2 < |before| && k2 != k ==> SameBlocks(before[k2], after[k2]))
  }

  /** `allocate`: try the heaps of the memory type in order; when none serves the request, add
      `newHeap` (the newly constructed heap) at the end of the pool and malloc from it, letting its
      OutOfMemory propagate. */
  function PoolAllocate(heaps: seq<PoolHeap>, index: nat, tag: MemoryType, req: nat, alignment: Pos, newHeap: PoolHeap): (r: (seq<PoolHeap>, Result<Block>))
    requires AllValid(heaps) && HeapValid(newHeap) && IsUsage(tag) && TypeIndexOf(newHeap) == index
    ensures AllValid(r.0)
    ensures |r.0| == |heaps| || |r.0| == |heaps| + 1
    ensures SameHeaps(heaps, r.0[..|heaps|])
    ensures |r.0| == |heaps| + 1 <==>
      forall k :: 0 <= k < |heaps| && TypeIndexOf(heaps[k]) == index ==> HeapMalloc(heaps[k], tag, req, alignment).1.Failure?
    ensures |r.0| == |heaps| + 1 ==> (r.0[|heaps|], r.1) == HeapMalloc(newHeap, tag, req, alignment)
    ensures |r.0| == |heaps| + 1 ==> SameHeap(newHeap, r.0[|heaps|])
    ensures |r.0| == |heaps| ==> r.1.Success?
    ensures r.1.Failure? ==> r.1.error == OutOfMemory
    ensures r.1.Success? ==> Holds(r.1.value, req, alignment)
    ensures r.1.Success? ==> exists k :: 0 <= k < |r.0| && ServedBy(r.0[k], index, r.1.value)
    ensures r.1.Success? ==> exists k :: ServedFirstAt(heaps, newHeap, r.0, k, index, tag, req, alignment, r.1.value)
    ensures r.1.Failure? ==> forall k :: 0 <= k < |heaps| ==> SameBlocks(heaps[k], r.0[k])
  {
    var (heaps1, found) := TryHeaps(heaps, 0, index, tag, req, alignment);
    TryHeapsFails(heaps, 0, index, tag, req, alignment);
    match found
    case Some((k, b)) =>
      TryHeapsServesFirst(heaps, index, tag, req, alignment, newHeap);
      (heaps1, Success(b))
    case None =>
      var (grown, res) := HeapMalloc(newHeap, tag, req, alignment);
      assert (heaps1 + [grown])[..|heaps|] == heaps1;
      GrownHeapServes(heaps, index, tag, req, alignment, newHeap);
      (heaps1 + [grown], res)
  }

  /** When a heap of the pool serves, it is the first of the type to succeed and the only one
      that gains a block. */
  lemma TryHeapsServesFirst(heaps: seq<PoolHeap>, index: nat, tag: MemoryType, req: nat, alignment: Pos, newHeap: PoolHeap)
    requires AllValid(heaps) && IsUsage(tag)
    ensures var (heaps1, found) := TryHeaps(heaps, 0, index, tag, req, alignment);
      found.Some? ==> ServedFirstAt(heaps, newHeap, heaps1, found.value.0, index, tag, req, alignment, found.value.1)
  {
    var (heaps1, found) := TryHeaps(heaps, 0, index, tag, req, alignment);
    if found.Some? {
      TryHeapsKeepsBlocks(heaps, index, tag, req, alignment);
      HeapMallocGrows(heaps[found.value.0], tag, req, alignment);
    }
  }

  /** When no heap of the pool serves, the added heap does if its malloc succeeds, and no heap
      of the pool gains a block either way. */
  lemma GrownHeapServes(heaps: seq<PoolHeap>, index: nat, tag: MemoryType, req: nat, alignment: Pos, newHeap: PoolHeap)
    requires AllValid(heaps) && HeapValid(newHeap) && IsUsage(tag) && TypeIndexOf(newHeap) == index
    ensures var (heaps1, found) := TryHeaps(heaps, 0, index, tag, req, alignment);
      var (grown, res) := HeapMalloc(newHeap, tag, req, alignment);
      found.None? ==>
        && (forall k :: 0 <= k < |heaps| ==> SameBlocks(heaps[k], (heaps1 + [grown])[k]))
        && (res.Success? ==> ServedFirstAt(heaps, newHeap, heaps1 + [grown], |heaps|, index, tag, req, alignment, res.value))
  {
    var (heaps1, found) := TryHeaps(heaps, 0, index, tag, req, alignment);
    var (grown, res) := HeapMalloc(newHeap, tag, req, alignment);
    if found.None? {
      var heaps2 := heaps1 + [grown];
      assert forall k :: 0 <= k < |heaps| ==> heaps2[k] == heaps1[k];
      TryHeapsKeepsBlocks(heaps, index, tag, req, alignment);
      TryHeapsFails(heaps, 0, index, tag, req, alignment);
      HeapMallocGrows(newHeap, tag, req, alignment);
    }
  }

  /** Memory type `i` is allowed by the requirement's `memoryTypeBits` (`typeBits & (1 << i)`). */
  predicate Allowed(typeBits: bv32, i: nat)
    requires i < 32
  {
    typeBits & ((1 as bv32) << i) != 0
  }

  /** The memory type has every property flag the request asks for (`(flags & mask) == mask`). */
  predicate Satisfies(flags: bv32, mask: bv32) {
    flags & mask == mask
  }

  /** Memory type `i` is a candidate for the request. */
  predicate Suitable(types: seq<bv32>, typeBits: bv32, mask: bv32, i: nat)
    requires i < |types| <= 32
  {
    Allowed(typeBits, i) && Satisfies(types[i], mask)
  }

  /** The search of `getMemoryTypeIndex` from `i` on. */
  function MemoryTypeIndexFrom(types: seq<bv32>, typeBits: bv32, mask: bv32, i: nat): (r: Option<nat>)
    requires i <= |types| <= 32
    decreases |types| - i
    ensures r.Some? ==> i <= r.value < |types| && Suitable(types, typeBits, mask, r.value)
    ensures r.Some? ==> forall j :: i <= j < r.value ==> !Suitable(types, typeBits, mask, j)
    ensures r.None? ==> forall j :: i <= j < |types| ==> !Suitable(types, typeBits, mask, j)
  {
    if i == |types| then None
    else if Allowed(typeBits, i) && Satisfies(types[i], mask) then Some(i)
    else MemoryTypeIndexFrom(types, typeBits, mask, i + 1)
  }

  /** `getMemoryTypeIndex`: the least memory type that the requirement allows and that has the
      requested property flags; UnsupportedMemoryType when there is none. */
  function MemoryTypeIndex(types: seq<bv32>, typeBits: bv32, mask: bv32): (r: Result<nat>)
    requires |types| <= 32
    ensures r.Failure? <==> forall j :: 0 <= j < |types| ==> !Suitable(types, typeBits, mask, j)
    ensures r.Failure? ==> r.error == UnsupportedMemoryType
    ensures r.Success? ==>
      && r.value < |types|
      && Suitable(types, typeBits, mask, r.value)
      && forall j :: 0 <= j < r.value ==> !Suitable(types, typeBits, mask, j)
  {
    match MemoryTypeIndexFrom(types, typeBits, mask, 0)
    case None => Failure(UnsupportedMemoryType)
    case Some(i) => Success(i)
  }

  /** `VkMemoryRequirements`: size, alignment and the allowed memory types. */
  datatype Requirements = Requirements(size: nat, alignment: Pos, memoryTypeBits: bv32)

  /** The manager: the property flags of the device's memory types, one optional unique heap per
      memory type and usage, the four pools, and the next native handle the driver hands out. */
  datatype State = State(
    memoryTypes: seq<bv32>,
    largeBufferHeaps: seq<Option<Unique.Heap>>,
    largeImageHeaps: seq<Option<Unique.Heap>>,
    smallBufferHeaps: seq<PoolHeap>,
    smallImageHeaps: seq<PoolHeap>,
    standardBufferHeaps: seq<PoolHeap>,
    standardImageHeaps: seq<PoolHeap>,
    nextHandle: nat)

  /** Small pools hold slab heaps, standard pools hold valid buddy heaps. */
  predicate SlabPool(heaps: seq<PoolHeap>) {
    forall k :: 0 <= k < |heaps| ==> heaps[k].SlabHeap?
  }

  predicate BuddyPool(heaps: seq<PoolHeap>) {
    forall k :: 0 <= k < |heaps| ==> heaps[k].BuddyHeap? && Buddy.Valid(heaps[k].buddy)
  }

  /** The unique heap at position `i`, if any, serves memory type `i`. */
  predicate UniqueSlots(heaps: seq<Option<Unique.Heap>>) {
    forall i :: 0 <= i < |heaps| && heaps[i].Some? ==> heaps[i].value.typeIndex == i
  }

  predicate Valid(m: State) {
    && |m.memoryTypes| <= 32
    && |m.largeBufferHeaps| == |m.memoryTypes| && |m.largeImageHeaps| == |m.memoryTypes|
    && UniqueSlots(m.largeBufferHeaps) && UniqueSlots(m.largeImageHeaps)
    && SlabPool(m.smallBufferHeaps) && SlabPool(m.smallImageHeaps)
    && BuddyPool(m.standardBufferHeaps) && BuddyPool(m.standardImageHeaps)
  }

  /** The constructor: no heap yet. */
  function Init(memoryTypes: seq<bv32>, nextHandle: nat): (m: State)
    requires |memoryTypes| <= 32
    ensures Valid(m)
  {
    var none := seq(|memoryTypes|, _ => None);
    State(memoryTypes, none, none, [], [], [], [], nextHandle)
  }

  /** Which heap family serves a request of `size` bytes. */
  datatype Route = Large | Small | Standard

  function RouteOf(size: nat): Route {
    if size > LargeAllocThreshold then Large
    else if size <= SmallAllocThreshold then Small
    else Standard
  }

  /** The pool a request of usage `tag` is routed to. */
  function Pool(m: State, tag: MemoryType, route: Route): seq<PoolHeap>
    requires route != Large
  {
    if route == Small then (if tag == IMAGE then m.smallImageHeaps else m.smallBufferHeaps)
    else (if tag == IMAGE then m.standardImageHeaps else m.standardBufferHeaps)
  }

  function WithPool(m: State, tag: MemoryType, route: Route, heaps: seq<PoolHeap>): (r: State)
    requires route != Large
    ensures Pool(r, tag, route) == heaps
  {
    if route == Small then (if tag == IMAGE then m.(smallImageHeaps := heaps) else m.(smallBufferHeaps := heaps))
    else (if tag == IMAGE then m.(standardImageHeaps := heaps) else m.(standardBufferHeaps := heaps))
  }

  /** The supplier passed to `allocate`: a slab heap with the small size classes, or a buddy heap
      with the usage's minimum subdivision and heap size. */
  function NewPoolHeap(tag: MemoryType, route: Route, index: nat, handle: nat): (h: PoolHeap)
    requires route != Large
    ensures HeapValid(h) && TypeIndexOf(h) == index && HandleOf(h) == handle
    ensures route == Small <==> h.SlabHeap?
    ensures h.BuddyHeap? ==> h.buddy == Buddy.Init(handle, index, h.buddy.minSize, h.buddy.size)
    ensures h.BuddyHeap? ==> h.buddy.size >= LargeAllocThreshold
  {
    if route == Small then SlabHeap(Slab.Init(handle, index, SmallHeapSizes))
    else if tag == IMAGE then BuddyHeap(Buddy.Init(handle, index, MinimumImageSubdivSize, StandardImageHeapSize))
    else BuddyHeap(Buddy.Init(handle, index, MinimumBufferSubdivSize, StandardBufferHeapSize))
  }

  /** The block is aligned and holds the request. */
  predicate Holds(b: Block, req: nat, alignment: Pos) {
    b.offset % alignment == 0 && b.size >= req
  }

  /** A pool of one kind stays of that kind when it grows by a heap of that kind. */
  lemma PoolKeepsKind(heaps: seq<PoolHeap>, heaps1: seq<PoolHeap>, newHeap: PoolHeap)
    requires AllValid(heaps1)
    requires |heaps1| == |heaps| || |heaps1| == |heaps| + 1
    requires SameHeaps(heaps, heaps1[..|heaps|])
    requires |heaps1| == |heaps| + 1 ==> SameHeap(newHeap, heaps1[|heaps|])
    ensures SlabPool(heaps) && newHeap.SlabHeap? ==> SlabPool(heaps1)
    ensures BuddyPool(heaps) && newHeap.BuddyHeap? ==> BuddyPool(heaps1)
  {
    forall k | 0 <= k < |heaps|
      ensures SameHeap(heaps[k], heaps1[k])
    {
      assert heaps1[..|heaps|][k] == heaps1[k];
    }
  }

  /** The unique heap slots of usage `tag`, one per memory type. */
  function LargeHeaps(m: State, tag: MemoryType): seq<Option<Unique.Heap>> {
    if tag == IMAGE then m.largeImageHeaps else m.largeBufferHeaps
  }

  function WithLargeHeaps(m: State, tag: MemoryType, slots: seq<Option<Unique.Heap>>): (r: State)
    ensures LargeHeaps(r, tag) == slots
  {
    if tag == IMAGE then m.(largeImageHeaps := slots) else m.(largeBufferHeaps := slots)
  }

  /** The heap in a unique slot, or the one the constructor builds for memory type `index` when
      the slot is still empty. */
  function HeapOrInit(slot: Option<Unique.Heap>, index: nat): (h: Unique.Heap)
    ensures slot.Some? ==> h == slot.value
    ensures slot.None? ==> h.typeIndex == index && h.allocations == map[]
  {
    if slot.Some? then slot.value else Unique.Init(index)
  }

  /** The unique heap of usage `tag` and memory type `index` holds the memory object `handle`. */
  predicate UniqueHolds(m: State, tag: MemoryType, index: nat, handle: nat) {
    var slots := LargeHeaps(m, tag);
    index < |slots| && slots[index].Some? && handle in slots[index].value.allocations
  }

  /** The large route: the unique heap of the usage and memory type, created on first use,
      hands out a memory object of its own. */
  function AllocateLarge(m: State, tag: MemoryType, index: nat, reqs: Requirements): (r: (State, Block))
    requires Valid(m) && index < |m.memoryTypes|
    ensures Valid(r.0) && r.0.memoryTypes == m.memoryTypes
    ensures r.0.nextHandle == m.nextHandle + 1
    ensures Holds(r.1, reqs.size, reqs.alignment) && r.1.place.InUnique? && r.1.handle == m.nextHandle
    ensures UniqueHolds(r.0, tag, index, m.nextHandle)
    ensures r.0 == WithLargeHeaps(m, tag, LargeHeaps(r.0, tag)).(nextHandle := r.0.nextHandle)
    ensures |LargeHeaps(r.0, tag)| == |LargeHeaps(m, tag)|
    ensures forall j :: 0 <= j < |LargeHeaps(m, tag)| && j != index ==> LargeHeaps(r.0, tag)[j] == LargeHeaps(m, tag)[j]
    ensures LargeHeaps(r.0, tag)[index] ==
      Some(Unique.Malloc(HeapOrInit(LargeHeaps(m, tag)[index], index), reqs.size, reqs.alignment, m.nextHandle).0)
    ensures forall handle :: UniqueHolds(m, tag, index, handle) ==> UniqueHolds(r.0, tag, index, handle)
  {
    var slots := LargeHeaps(m, tag);
    var (heap1, b) := Unique.Malloc(HeapOrInit(slots[index], index), reqs.size, reqs.alignment, m.nextHandle);
    var m1 := WithLargeHeaps(m, tag, slots[index := Some(heap1)]);
    (m1.(nextHandle := m.nextHandle + 1), Block(b.handle, 0, b.size, InUnique))
  }

  /** The small and standard routes: `allocate` on the pool, with a new heap drawing the next
      native handle when the pool has to grow. */
  function AllocatePooled(m: State, tag: MemoryType, route: Route, index: nat, reqs: Requirements): (r: (State, Result<Block>))
    requires Valid(m) && IsUsage(tag) && route != Large
    ensures Valid(r.0) && r.0.memoryTypes == m.memoryTypes
    ensures r.1.Failure? ==> r.1.error == OutOfMemory
    ensures r.1.Success? ==> Holds(r.1.value, reqs.size, reqs.alignment)
    ensures r.1.Success? ==> exists k :: 0 <= k < |Pool(r.0, tag, route)| && ServedBy(Pool(r.0, tag, route)[k], index, r.1.value)
    ensures r.0 == WithPool(m, tag, route, Pool(r.0, tag, route)).(nextHandle := r.0.nextHandle)
    ensures |Pool(r.0, tag, route)| == |Pool(m, tag, route)| + (r.0.nextHandle - m.nextHandle)
    ensures r.0.nextHandle == m.nextHandle || r.0.nextHandle == m.nextHandle + 1
    ensures r.1.Failure? ==>
      forall k :: 0 <= k < |Pool(m, tag, route)| ==> SameBlocks(Pool(m, tag, route)[k], Pool(r.0, tag, route)[k])
    ensures r.1.Success? ==> exists k :: ServedFirstAt(Pool(m, tag, route), NewPoolHeap(tag, route, index, m.nextHandle),
      Pool(r.0, tag, route), k, index, tag, reqs.size, reqs.alignment, r.1.value)
  {
    var heaps := Pool(m, tag, route);
    var newHeap := NewPoolHeap(tag, route, index, m.nextHandle);
    var (heaps1, res) := PoolAllocate(heaps, index, tag, reqs.size, reqs.alignment, newHeap);
    var used := if |heaps1| == |heaps| then 0 else 1;
    var m1 := WithPool(m, tag, route, heaps1).(nextHandle := m.nextHandle + used);
    PoolKeepsKind(heaps, heaps1, newHeap);
    assert Pool(m1, tag, route) == heaps1;
    (m1, res)
  }

  /** `m1` differs from `m` at most in the handle counter and in the heaps a request of usage
      `tag`, memory type `index` and route `route` may touch: the unique heap slot `index` of the
      usage on the large route, the routed pool otherwise. */
  predicate TouchesOnly(m: State, m1: State, tag: MemoryType, route: Route, index: nat) {
    if route == Large then
      && m1 == WithLargeHeaps(m, tag, LargeHeaps(m1, tag)).(nextHandle := m1.nextHandle)
      && |LargeHeaps(m1, tag)| == |LargeHeaps(m, tag)|
      && forall j :: 0 <= j < |LargeHeaps(m, tag)| && j != index ==> LargeHeaps(m1, tag)[j] == LargeHeaps(m, tag)[j]
    else m1 == WithPool(m, tag, route, Pool(m1, tag, route)).(nextHandle := m1.nextHandle)
  }

  /** `allocateBufferMemory` / `allocateImageMemory`, which differ only in the usage tag, the
      pools and the buddy heap size: pick the memory type, then route by size. */
  function Allocate(m: State, tag: MemoryType, reqs: Requirements, properties: bv32): (r: (State, Result<Block>))
    requires Valid(m) && IsUsage(tag)
    ensures Valid(r.0) && r.0.memoryTypes == m.memoryTypes
    ensures MemoryTypeIndex(m.memoryTypes, reqs.memoryTypeBits, properties).Failure? ==>
      r == (m, Failure(UnsupportedMemoryType))
    ensures r.1.Failure? ==> r.1.error == UnsupportedMemoryType || r.1.error == OutOfMemory
    ensures r.1.Success? ==> Holds(r.1.value, reqs.size, reqs.alignment)
    ensures MemoryTypeIndex(m.memoryTypes, reqs.memoryTypeBits, properties).Success? ==>
      TouchesOnly(m, r.0, tag, RouteOf(reqs.size), MemoryTypeIndex(m.memoryTypes, reqs.memoryTypeBits, properties).value)
  {
    match MemoryTypeIndex(m.memoryTypes, reqs.memoryTypeBits, properties)
    case Failure(e) => (m, Failure(e))
    case Success(index) =>
      var route := RouteOf(reqs.size);
      if route == Large then
        var (m1, b) := AllocateLarge(m, tag, index, reqs);
        (m1, Success(b))
      else
        AllocatePooled(m, tag, route, index, reqs)
  }

  /** A successful allocation comes from the heap family its size selects, and from a heap of
      the memory type `getMemoryTypeIndex` picked: a large request from the unique heap of that
      type, the others from a slab or buddy heap of that type in the small or standard pool. */
  lemma AllocateRoutes(m: State, tag: MemoryType, reqs: Requirements, properties: bv32)
    requires Valid(m) && IsUsage(tag)
    ensures var (m1, r) := Allocate(m, tag, reqs, properties);
      r.Success? ==>
        var index := MemoryTypeIndex(m.memoryTypes, reqs.memoryTypeBits, properties).value;
        var route := RouteOf(reqs.size);
        if route == Large then r.value.place.InUnique? && UniqueHolds(m1, tag, index, r.value.handle)
        else
          && (route == Small ==> r.value.place.InSlab?)
          && (route == Standard ==> r.value.place.InBuddy?)
          && exists k :: 0 <= k < |Pool(m1, tag, route)| && ServedBy(Pool(m1, tag, route)[k], index, r.value)
  {
    var (m1, r) := Allocate(m, tag, reqs, properties);
    var route := RouteOf(reqs.size);
    if r.Success? && route != Large {
      var index := MemoryTypeIndex(m.memoryTypes, reqs.memoryTypeBits, properties).value;
      assert (m1, r) == AllocatePooled(m, tag, route, index, reqs);
      var k :| 0 <= k < |Pool(m1, tag, route)| && ServedBy(Pool(m1, tag, route)[k], index, r.value);
      assert route == Small ==> Pool(m1, tag, route)[k].SlabHeap?;
      assert route == Standard ==> Pool(m1, tag, route)[k].BuddyHeap?;
    }
  }

  /** A fresh buddy heap of a standard pool serves every standard request: the standard heaps
      are at least as large as the large-request threshold. */
  lemma NewBuddyServes(tag: MemoryType, index: nat, handle: nat, req: nat, alignment: Pos)
    requires IsUsage(tag) && RouteOf(req) == Standard
    ensures HeapMalloc(NewPoolHeap(tag, Standard, index, handle), tag, req, alignment).1.Success?
  {
    var h := NewPoolHeap(tag, Standard, index, handle).buddy;
    Buddy.FreshRoundTrip(handle, index, h.minSize, h.size, tag, req, alignment);
  }

  /** Only the small route can run out of memory: the unique heap always makes a new memory
      object, and a standard pool that has to grow gets a heap large enough for the request.
      Otherwise allocation fails only when no memory type suits the request. */
  lemma AllocateFailures(m: State, tag: MemoryType, reqs: Requirements, properties: bv32)
    requires Valid(m) && IsUsage(tag)
    ensures var r := Allocate(m, tag, reqs, properties).1;
      r.Failure? ==>
        || (r.error == UnsupportedMemoryType && MemoryTypeIndex(m.memoryTypes, reqs.memoryTypeBits, properties).Failure?)
        || (r.error == OutOfMemory && RouteOf(reqs.size) == Small)
  {
    var route := RouteOf(reqs.size);
    var found := MemoryTypeIndex(m.memoryTypes, reqs.memoryTypeBits, properties);
    if found.Success? && route == Standard {
      var index := found.value;
      var heaps := Pool(m, tag, route);
      var newHeap := NewPoolHeap(tag, route, index, m.nextHandle);
      NewBuddyServes(tag, index, m.nextHandle, reqs.size, reqs.alignment);
      var (heaps1, res) := PoolAllocate(heaps, index, tag, reqs.size, reqs.alignment, newHeap);
      assert res.Success?;
    }
  }

  /** `allocateBufferMemory`: a block that is aligned and holds the request, from a heap of the
      requested memory type; no image heap is touched. */
  function AllocateBufferMemory(m: State, reqs: Requirements, properties: bv32): (r: (State, Result<Block>))
    requires Valid(m)
    ensures Valid(r.0)
    ensures r.1.Success? ==> Holds(r.1.value, reqs.size, reqs.alignment)
    ensures r.1.Failure? ==> r.1.error == UnsupportedMemoryType || r.1.error == OutOfMemory
    ensures r.0.largeImageHeaps == m.largeImageHeaps && r.0.smallImageHeaps == m.smallImageHeaps
      && r.0.standardImageHeaps == m.standardImageHeaps
    ensures MemoryTypeIndex(m.memoryTypes, reqs.memoryTypeBits, properties).Success? ==>
      TouchesOnly(m, r.0, BUFFER, RouteOf(reqs.size), MemoryTypeIndex(m.memoryTypes, reqs.memoryTypeBits, properties).value)
  {
    UsagesSeparate(m, BUFFER, reqs, properties);
    Allocate(m, BUFFER, reqs, properties)
  }

  /** `allocateImageMemory`: the same for images; no buffer heap is touched. */
  function AllocateImageMemory(m: State, reqs: Requirements, properties: bv32): (r: (State, Result<Block>))
    requires Valid(m)
    ensures Valid(r.0)
    ensures r.1.Success? ==> Holds(r.1.value, reqs.size, reqs.alignment)
    ensures r.1.Failure? ==> r.1.error == UnsupportedMemoryType || r.1.error == OutOfMemory
    ensures r.0.largeBufferHeaps == m.largeBufferHeaps && r.0.smallBufferHeaps == m.smallBufferHeaps
      && r.0.standardBufferHeaps == m.standardBufferHeaps
    ensures MemoryTypeIndex(m.memoryTypes, reqs.memoryTypeBits, properties).Success? ==>
      TouchesOnly(m, r.0, IMAGE, RouteOf(reqs.size), MemoryTypeIndex(m.memoryTypes, reqs.memoryTypeBits, properties).value)
  {
    UsagesSeparate(m, IMAGE, reqs, properties);
    Allocate(m, IMAGE, reqs, properties)
  }

  /** Every position shifted one place to the right. */
  function Shift(s: seq<nat>): (r: seq<nat>)
    ensures |r| == |s| && forall i :: 0 <= i < |s| ==> r[i] == s[i] + 1
  {
    seq(|s|, i requires 0 <= i < |s| => s[i] + 1)
  }

  /** The positions holding `v` in `flags`, in order. */
  function Where(flags: seq<bool>, v: bool): (r: seq<nat>)
    decreases |flags|
    ensures forall j :: 0 <= j < |r| ==> r[j] < |flags| && flags[r[j]] == v
  {
    if flags == [] then []
    else
      var rest := Where(flags[1..], v);
      assert forall j :: 0 <= j < |rest| ==> flags[Shift(rest)[j]] == flags[1..][rest[j]];
      (if flags[0] == v then [0] else []) + Shift(rest)
  }

  /** `Where` lists its positions in increasing order, so each once. */
  lemma {:induction false} WhereIncreasing(flags: seq<bool>, v: bool)
    decreases |flags|
    ensures forall a, b :: 0 <= a < b < |Where(flags, v)| ==> Where(flags, v)[a] < Where(flags, v)[b]
  {
    if flags != [] {
      var rest := Where(flags[1..], v);
      WhereIncreasing(flags[1..], v);
      var r := Where(flags, v);
      var n := |r| - |rest|;
      assert forall j :: n <= j < |r| ==> r[j] == rest[j - n] + 1;
      assert n == 1 ==> r[0] == 0;
    }
  }

  /** `Where` misses no position holding `v`. */
  lemma {:induction false} WhereComplete(flags: seq<bool>, v: bool)
    decreases |flags|
    ensures forall k :: 0 <= k < |flags| && flags[k] == v ==> k in Where(flags, v)
  {
    if flags != [] {
      var tail := flags[1..];
      var rest := Where(tail, v);
      WhereComplete(tail, v);
      forall k | 1 <= k < |flags| && flags[k] == v
        ensures k in Where(flags, v)
      {
        assert tail[k - 1] == flags[k];
        var j :| 0 <= j < |rest| && rest[j] == k - 1;
        assert Shift(rest)[j] == k;
      }
    }
  }

  /** Which heaps of the pool are in use. */
  function InUseFlags(heaps: seq<PoolHeap>): (r: seq<bool>)
    ensures |r| == |heaps| && forall k :: 0 <= k < |heaps| ==> r[k] == Occupied(heaps[k])
  {
    seq(|heaps|, k requires 0 <= k < |heaps| => Occupied(heaps[k]))
  }

  /** The positions of the pool's heaps that are in use (`inUse`) or that `isEmpty()` finds
      empty (`!inUse`), in order; `PositionsExact` says which they are. */
  function Positions(heaps: seq<PoolHeap>, inUse: bool): (r: seq<nat>)
    ensures forall j :: 0 <= j < |r| ==> r[j] < |heaps|
  {
    Where(InUseFlags(heaps), inUse)
  }

  /** `Positions` holds exactly the qualifying positions, each once, in increasing order. */
  lemma PositionsExact(heaps: seq<PoolHeap>, inUse: bool)
    ensures forall j :: 0 <= j < |Positions(heaps, inUse)| ==> Occupied(heaps[Positions(heaps, inUse)[j]]) == inUse
    ensures forall a, b :: 0 <= a < b < |Positions(heaps, inUse)| ==> Positions(heaps, inUse)[a] < Positions(heaps, inUse)[b]
    ensures forall k :: 0 <= k < |heaps| && Occupied(heaps[k]) == inUse ==> k in Positions(heaps, inUse)
  {
    WhereIncreasing(InUseFlags(heaps), inUse);
    WhereComplete(InUseFlags(heaps), inUse);
  }

  /** `after` is the pool's heaps in use, in their order, each still in use. */
  predicate KeepsInUse(before: seq<PoolHeap>, after: seq<PoolHeap>) {
    var p := Positions(before, true);
    && |after| == |p|
    && forall j :: 0 <= j < |after| ==> SameHeap(before[p[j]], after[j]) && SameBlocks(before[p[j]], after[j]) && Occupied(after[j])
  }

  /** The memory objects of the heaps `isEmpty()` finds empty, in pool order. */
  function EmptyHandles(heaps: seq<PoolHeap>): (r: seq<nat>)
    ensures |r| == |Positions(heaps, false)|
  {
    var p := Positions(heaps, false);
    seq(|p|, j requires 0 <= j < |p| => HandleOf(heaps[p[j]]))
  }

  /** The garbage collection of one pool: the heaps `isEmpty()` finds empty are freed (their
      handles are the second component, in order) and removed; the others stay, in order. */
  function Sweep(heaps: seq<PoolHeap>): (r: (seq<PoolHeap>, seq<nat>))
    requires AllValid(heaps)
    ensures AllValid(r.0)
    ensures |r.0| + |r.1| == |heaps|
    ensures KeepsInUse(heaps, r.0)
    ensures r.1 == EmptyHandles(heaps)
    ensures (forall k :: 0 <= k < |heaps| ==> Occupied(heaps[k])) ==> r.1 == []
  {
    if heaps == [] then ([], [])
    else
      var (h1, empty) := HeapIsEmpty(heaps[0]);
      var (kept, released) := Sweep(heaps[1..]);
      SweepStep(heaps, h1, empty, kept, released);
      if empty then (kept, [HandleOf(h1)] + released)
      else ([h1] + kept, released)
  }

  /** Keeping the heaps in use keeps every one of them, with the same blocks in use. */
  lemma KeepsEveryInUse(before: seq<PoolHeap>, after: seq<PoolHeap>)
    requires KeepsInUse(before, after)
    ensures forall k :: 0 <= k < |before| && Occupied(before[k]) ==>
      exists j :: 0 <= j < |after| && SameHeap(before[k], after[j]) && SameBlocks(before[k], after[j])
  {
    var p := Positions(before, true);
    PositionsExact(before, true);
    forall k | 0 <= k < |before| && Occupied(before[k])
      ensures exists j :: 0 <= j < |after| && SameHeap(before[k], after[j]) && SameBlocks(before[k], after[j])
    {
      var j :| 0 <= j < |p| && p[j] == k;
      assert SameHeap(before[p[j]], after[j]) && SameBlocks(before[p[j]], after[j]);
    }
  }

  /** The empty heaps' memory objects are those of every empty heap, and of nothing else. */
  lemma EmptyHandlesExact(heaps: seq<PoolHeap>)
    ensures forall k :: 0 <= k < |heaps| && !Occupied(heaps[k]) ==> HandleOf(heaps[k]) in EmptyHandles(heaps)
    ensures forall i :: 0 <= i < |EmptyHandles(heaps)| ==>
      exists k :: 0 <= k < |heaps| && !Occupied(heaps[k]) && EmptyHandles(heaps)[i] == HandleOf(heaps[k])
  {
    var released := EmptyHandles(heaps);
    var pf := Positions(heaps, false);
    PositionsExact(heaps, false);
    forall k | 0 <= k < |heaps| && !Occupied(heaps[k])
      ensures HandleOf(heaps[k]) in released
    {
      var j :| 0 <= j < |pf| && pf[j] == k;
      assert released[j] == HandleOf(heaps[k]);
    }
    forall i | 0 <= i < |released|
      ensures exists k :: 0 <= k < |heaps| && !Occupied(heaps[k]) && released[i] == HandleOf(heaps[k])
    {
      assert !Occupied(heaps[pf[i]]) && released[i] == HandleOf(heaps[pf[i]]);
    }
  }

  /** One step of the sweep: with the rest of the pool swept, the first heap is released when
      found empty and kept in front otherwise. */
  lemma SweepStep(heaps: seq<PoolHeap>, h1: PoolHeap, empty: bool, kept: seq<PoolHeap>, released: seq<nat>)
    requires AllValid(heaps) && heaps != [] && (h1, empty) == HeapIsEmpty(heaps[0])
    requires KeepsInUse(heaps[1..], kept) && released == EmptyHandles(heaps[1..])
    ensures empty ==> KeepsInUse(heaps, kept) && [HandleOf(h1)] + released == EmptyHandles(heaps)
    ensures !empty ==> KeepsInUse(heaps, [h1] + kept) && released == EmptyHandles(heaps)
  {
    if empty {
      KeptPastEmpty(heaps, kept);
      ReleasedEmpty(heaps, released);
    } else {
      KeptInUse(heaps, h1, kept);
      ReleasedPastInUse(heaps, released);
    }
  }

  lemma KeptPastEmpty(heaps: seq<PoolHeap>, kept: seq<PoolHeap>)
    requires heaps != [] && !Occupied(heaps[0]) && KeepsInUse(heaps[1..], kept)
    ensures KeepsInUse(heaps, kept)
  {
    var p, pt := Positions(heaps, true), Positions(heaps[1..], true);
    PositionsStep(heaps, true);
    assert p == Shift(pt);
    forall j | 0 <= j < |kept|
      ensures SameHeap(heaps[p[j]], kept[j]) && SameBlocks(heaps[p[j]], kept[j]) && Occupied(kept[j])
    {
      KeptShifted(heaps, kept, j);
    }
  }

  lemma KeptInUse(heaps: seq<PoolHeap>, h1: PoolHeap, kept: seq<PoolHeap>)
    requires heaps != [] && Occupied(h1) && SameHeap(heaps[0], h1) && SameBlocks(heaps[0], h1)
    requires KeepsInUse(heaps[1..], kept)
    requires Occupied(heaps[0])
    ensures KeepsInUse(heaps, [h1] + kept)
  {
    var p, pt := Positions(heaps, true), Positions(heaps[1..], true);
    PositionsStep(heaps, true);
    assert p == [0] + Shift(pt);
    var out := [h1] + kept;
    assert |out| == |p|;
    forall j | 0 <= j < |out|
      ensures SameHeap(heaps[p[j]], out[j]) && SameBlocks(heaps[p[j]], out[j]) && Occupied(out[j])
    {
      if j == 0 {
        assert out[0] == h1 && p[0] == 0;
      } else {
        KeptShifted(heaps, kept, j - 1);
        assert out[j] == kept[j - 1] && p[j] == Shift(pt)[j - 1];
      }
    }
  }

  /** The heap kept at `j` in the rest of the pool is the one one place further on. */
  lemma KeptShifted(heaps: seq<PoolHeap>, kept: seq<PoolHeap>, j: nat)
    requires heaps != [] && KeepsInUse(heaps[1..], kept) && j < |kept|
    ensures var pt := Positions(heaps[1..], true);
      && Shift(pt)[j] < |heaps| && SameHeap(heaps[Shift(pt)[j]], kept[j])
      && SameBlocks(heaps[Shift(pt)[j]], kept[j]) && Occupied(kept[j])
  {
    var pt := Positions(heaps[1..], true);
    assert heaps[Shift(pt)[j]] == heaps[1..][pt[j]];
  }

  lemma ReleasedEmpty(heaps: seq<PoolHeap>, released: seq<nat>)
    requires heaps != [] && !Occupied(heaps[0]) && released == EmptyHandles(heaps[1..])
    ensures [HandleOf(heaps[0])] + released == EmptyHandles(heaps)
  {
    PositionsStep(heaps, false);
    var pf := Positions(heaps[1..], false);
    assert forall j :: 0 <= j < |pf| ==> heaps[Shift(pf)[j]] == heaps[1..][pf[j]];
    var e := EmptyHandles(heaps);
    assert forall j :: 1 <= j < |e| ==> e[j] == released[j - 1];
  }

  lemma ReleasedPastInUse(heaps: seq<PoolHeap>, released: seq<nat>)
    requires heaps != [] && Occupied(heaps[0]) && released == EmptyHandles(heaps[1..])
    ensures released == EmptyHandles(heaps)
  {
    PositionsStep(heaps, false);
    var pf := Positions(heaps[1..], false);
    assert forall j :: 0 <= j < |pf| ==> heaps[Shift(pf)[j]] == heaps[1..][pf[j]];
    var e := EmptyHandles(heaps);
    assert forall j :: 0 <= j < |e| ==> e[j] == released[j];
  }

  /** The positions in a pool are the first heap's, if it qualifies, then the rest's shifted. */
  lemma PositionsStep(heaps: seq<PoolHeap>, inUse: bool)
    requires heaps != []
    ensures Positions(heaps, inUse)
      == (if Occupied(heaps[0]) == inUse then [0] else []) + Shift(Positions(heaps[1..], inUse))
  {
    assert InUseFlags(heaps)[1..] == InUseFlags(heaps[1..]);
  }

  /** `garbageCollect()`: sweep the small buffer, small image, standard buffer and standard image
      pools in that order. Unique heaps are never collected. Each pool keeps exactly its heaps in
      use; the handles released are exactly those of the heaps found empty. */
  function GarbageCollect(m: State): (r: (State, seq<nat>))
    requires Valid(m)
    ensures Valid(r.0)
    ensures r.0 == m.(smallBufferHeaps := r.0.smallBufferHeaps, smallImageHeaps := r.0.smallImageHeaps,
                      standardBufferHeaps := r.0.standardBufferHeaps, standardImageHeaps := r.0.standardImageHeaps)
    ensures KeepsInUse(m.smallBufferHeaps, r.0.smallBufferHeaps)
    ensures KeepsInUse(m.smallImageHeaps, r.0.smallImageHeaps)
    ensures KeepsInUse(m.standardBufferHeaps, r.0.standardBufferHeaps)
    ensures KeepsInUse(m.standardImageHeaps, r.0.standardImageHeaps)
    ensures r.1 == EmptyHandles(m.smallBufferHeaps) + EmptyHandles(m.smallImageHeaps)
      + EmptyHandles(m.standardBufferHeaps) + EmptyHandles(m.standardImageHeaps)
  {
    var (sb, r1) := Sweep(m.smallBufferHeaps);
    var (si, r2) := Sweep(m.smallImageHeaps);
    var (tb, r3) := Sweep(m.standardBufferHeaps);
    var (ti, r4) := Sweep(m.standardImageHeaps);
    KeptKind(m.smallBufferHeaps, sb);
    KeptKind(m.smallImageHeaps, si);
    KeptKind(m.standardBufferHeaps, tb);
    KeptKind(m.standardImageHeaps, ti);
    (m.(smallBufferHeaps := sb, smallImageHeaps := si, standardBufferHeaps := tb, standardImageHeaps := ti), r1 + r2 + r3 + r4)
  }

  /** Sweeping keeps a pool's kind: every heap kept is a heap of the pool. */
  lemma KeptKind(heaps: seq<PoolHeap>, kept: seq<PoolHeap>)
    requires AllValid(kept) && KeepsInUse(heaps, kept)
    ensures SlabPool(heaps) ==> SlabPool(kept)
    ensures BuddyPool(heaps) ==> BuddyPool(kept)
  {
    var p := Positions(heaps, true);
    forall j | 0 <= j < |kept|
      ensures (SlabPool(heaps) ==> kept[j].SlabHeap?) && (BuddyPool(heaps) ==> kept[j].BuddyHeap?)
    {
      assert SameHeap(heaps[p[j]], kept[j]);
    }
  }

  /** A second garbage collection right after a first one releases nothing. */
  lemma GarbageCollectTwice(m: State)
    requires Valid(m)
    ensures GarbageCollect(GarbageCollect(m).0).1 == []
  {
  }

  /** The native handles of a pool's heaps. */
  function PoolHandles(heaps: seq<PoolHeap>): set<nat> {
    set k | 0 <= k < |heaps| :: HandleOf(heaps[k])
  }

  /** The native handles of the blocks of the unique heaps. */
  function UniqueHandles(slots: seq<Option<Unique.Heap>>): set<nat> {
    set i, handle | 0 <= i < |slots| && slots[i].Some? && handle in slots[i].value.allocations :: handle
  }

  /** `handle` is the memory object of a block of one of the unique heaps. */
  predicate UniqueHolding(slots: seq<Option<Unique.Heap>>, handle: nat) {
    exists i :: 0 <= i < |slots| && slots[i].Some? && handle in slots[i].value.allocations
  }

  /** `handle` is the memory object of one of the pool's heaps. */
  predicate PoolHolding(heaps: seq<PoolHeap>, handle: nat) {
    exists k :: 0 <= k < |heaps| && HandleOf(heaps[k]) == handle
  }

  /** The manager owns the memory object `handle`: a unique block or a pool heap. */
  predicate Owns(m: State, handle: nat) {
    || UniqueHolding(m.largeBufferHeaps, handle) || UniqueHolding(m.largeImageHeaps, handle)
    || PoolHolding(m.smallBufferHeaps, handle) || PoolHolding(m.smallImageHeaps, handle)
    || PoolHolding(m.standardBufferHeaps, handle) || PoolHolding(m.standardImageHeaps, handle)
  }

  /** `free()`: every unique heap frees its blocks and every pool heap its memory object; then
      all slots and pools are emptied. The second component is the set of handles released:
      every memory object the manager owns, and nothing else. */
  function Free(m: State): (r: (State, set<nat>))
    requires Valid(m)
    ensures r.0 == Init(m.memoryTypes, m.nextHandle)
    ensures forall i, handle :: 0 <= i < |m.largeBufferHeaps| && m.largeBufferHeaps[i].Some? && handle in m.largeBufferHeaps[i].value.allocations ==> handle in r.1
    ensures forall i, handle :: 0 <= i < |m.largeImageHeaps| && m.largeImageHeaps[i].Some? && handle in m.largeImageHeaps[i].value.allocations ==> handle in r.1
    ensures forall k :: 0 <= k < |m.smallBufferHeaps| ==> HandleOf(m.smallBufferHeaps[k]) in r.1
    ensures forall k :: 0 <= k < |m.smallImageHeaps| ==> HandleOf(m.smallImageHeaps[k]) in r.1
    ensures forall k :: 0 <= k < |m.standardBufferHeaps| ==> HandleOf(m.standardBufferHeaps[k]) in r.1
    ensures forall k :: 0 <= k < |m.standardImageHeaps| ==> HandleOf(m.standardImageHeaps[k]) in r.1
    ensures forall handle :: handle in r.1 ==> Owns(m, handle)
  {
    var released := UniqueHandles(m.largeBufferHeaps) + UniqueHandles(m.largeImageHeaps)
      + PoolHandles(m.smallBufferHeaps) + PoolHandles(m.smallImageHeaps)
      + PoolHandles(m.standardBufferHeaps) + PoolHandles(m.standardImageHeaps);
    (Init(m.memoryTypes, m.nextHandle), released)
  }

  /** Whatever an allocation hands out, the manager's `free()` releases its memory object. */
  lemma AllocateThenFree(m: State, tag: MemoryType, reqs: Requirements, properties: bv32)
    requires Valid(m) && IsUsage(tag)
    requires Allocate(m, tag, reqs, properties).1.Success?
    ensures var (m1, r) := Allocate(m, tag, reqs, properties);
      r.value.handle in Free(m1).1
  {
    var (m1, r) := Allocate(m, tag, reqs, properties);
    AllocateRoutes(m, tag, reqs, properties);
    var route := RouteOf(reqs.size);
    if route != Large {
      var k :| 0 <= k < |Pool(m1, tag, route)| && ServedBy(Pool(m1, tag, route)[k], MemoryTypeIndex(m.memoryTypes, reqs.memoryTypeBits, properties).value, r.value);
      assert HandleOf(Pool(m1, tag, route)[k]) == r.value.handle;
    }
  }

  /** The unique heap of a usage and memory type is created once and then reused: two large
      requests in a row get distinct memory objects, both recorded in the same unique heap. */
  lemma LargeHeapReused(m: State, tag: MemoryType, reqs: Requirements, properties: bv32)
    requires Valid(m) && IsUsage(tag) && RouteOf(reqs.size) == Large
    requires MemoryTypeIndex(m.memoryTypes, reqs.memoryTypeBits, properties).Success?
    ensures var index := MemoryTypeIndex(m.memoryTypes, reqs.memoryTypeBits, properties).value;
      var (m1, r1) := Allocate(m, tag, reqs, properties);
      var (m2, r2) := Allocate(m1, tag, reqs, properties);
      && r1.Success? && r2.Success?
      && r1.value.handle != r2.value.handle
      && UniqueHolds(m2, tag, index, r1.value.handle)
      && UniqueHolds(m2, tag, index, r2.value.handle)
  {
    var index := MemoryTypeIndex(m.memoryTypes, reqs.memoryTypeBits, properties).value;
    var (m1, b1) := AllocateLarge(m, tag, index, reqs);
    var (m2, b2) := AllocateLarge(m1, tag, index, reqs);
    assert Allocate(m, tag, reqs, properties) == (m1, Success(b1));
    assert Allocate(m1, tag, reqs, properties) == (m2, Success(b2));
  }

  /** The size thresholds: a byte over 128 MiB is large, up to 32 KiB is small, and everything in
      between, 128 MiB included, is standard. */
  lemma RouteBoundaries()
    ensures RouteOf(LargeAllocThreshold + 1) == Large
    ensures RouteOf(LargeAllocThreshold) == Standard
    ensures RouteOf(SmallAllocThreshold + 1) == Standard
    ensures RouteOf(SmallAllocThreshold) == Small
    ensures forall size: nat :: RouteOf(size) == Small <==> size <= SmallAllocThreshold
    ensures forall size: nat :: RouteOf(size) == Large <==> size > LargeAllocThreshold
  {
  }

  /** Image and buffer requests use separate heaps: an allocation of one usage leaves every heap of
      the other usage as it was. */
  lemma UsagesSeparate(m: State, tag: MemoryType, reqs: Requirements, properties: bv32)
    requires Valid(m) && IsUsage(tag)
    ensures var m1 := Allocate(m, tag, reqs, properties).0;
      if tag == IMAGE then
        && m1.largeBufferHeaps == m.largeBufferHeaps
        && m1.smallBufferHeaps == m.smallBufferHeaps
        && m1.standardBufferHeaps == m.standardBufferHeaps
      else
        && m1.largeImageHeaps == m.largeImageHeaps
        && m1.smallImageHeaps == m.smallImageHeaps
        && m1.standardImageHeaps == m.standardImageHeaps
  {
  }

  /** The default slab heap: four classes of 1 MiB each, 4 MiB in all. */
  lemma SmallHeapLayout()
    ensures Slab.TotalSize(SmallHeapSizes) == 4 * 1024 * 1024
    ensures forall i :: 0 <= i < |SmallHeapSizes| ==> Slab.Base(SmallHeapSizes, i) == i * 1024 * 1024
  {
    assert Slab.Base(SmallHeapSizes, 1) == 1024 * 1024;
    assert Slab.Base(SmallHeapSizes, 2) == 2 * 1024 * 1024;
    assert Slab.Base(SmallHeapSizes, 3) == 3 * 1024 * 1024;
    assert Slab.Base(SmallHeapSizes, 4) == 4 * 1024 * 1024;
  }
}

=== FILE: mapping.dfy ===
/** The cached mapping with a reference count that the buddy, slab, linear and stack heaps each
    carry (`map()`/`unmap()` in those classes): the first map performs the native map, later maps
    only count, and the native unmap happens when the count returns to zero. */
module Mapping {

  /** `mapCount` and whether `address` (the cached native mapping) is set. */
  datatype State = State(count: int, mapped: bool)

  const Unmapped := State(0, false)

  /** The mapping is cached exactly while some map is outstanding. */
  predicate Consistent(s: State) {
    s.count >= 0 && (s.mapped <==> s.count > 0)
  }

  /** One `map()`: the new state, and whether the native map call is issued. */
  function Map(s: State): (r: (State, bool))
    ensures r.0.mapped && r.0.count == s.count + 1
    ensures r.1 <==> !s.mapped
    ensures Consistent(s) ==> Consistent(r.0) && (r.1 <==> s.count == 0)
  {
    (State(s.count + 1, true), !s.mapped)
  }

  /** One `unmap()`: the new state, and whether the native unmap call is issued. An unmap with
      no map outstanding drives the count negative and issues nothing. */
  function Unmap(s: State): (r: (State, bool))
    ensures r.0.count == s.count - 1
    ensures r.1 <==> s.count == 1
    ensures r.1 ==> r.0 == Unmapped
    ensures !r.1 ==> r.0.mapped == s.mapped
    ensures Consistent(s) && s.count > 0 ==> Consistent(r.0)
  {
    var count := s.count - 1;
    if count == 0 then (Unmapped, true) else (State(count, s.mapped), false)
  }

  /** An unmap undoes the map before it, and issues the native unmap exactly when that map
      issued the native map. */
  lemma MapThenUnmap(s: State)
    requires Consistent(s)
    ensures Unmap(Map(s).0) == (s, Map(s).1)
  {
  }

  /** `k` successive maps: the final state and the number of native maps issued. */
  function MapTimes(s: State, k: nat): (State, nat)
    decreases k
  {
    if k == 0 then (s, 0)
    else
      var (s', native) := Map(s);
      var (s'', n) := MapTimes(s', k - 1);
      (s'', n + if native then 1 else 0)
  }

  /** `k` successive unmaps: the final state and the number of native unmaps issued. */
  function UnmapTimes(s: State, k: nat): (State, nat)
    decreases k
  {
    if k == 0 then (s, 0)
    else
      var (s', native) := Unmap(s);
      var (s'', n) := UnmapTimes(s', k - 1);
      (s'', n + if native then 1 else 0)
  }

  /** Maps on an already mapped heap only count. */
  lemma {:induction false} MapWhileMapped(c: int, k: nat)
    ensures MapTimes(State(c, true), k) == (State(c + k, true), 0)
    decreases k
  {
    if k > 0 {
      MapWhileMapped(c + 1, k - 1);
    }
  }

  /** Unmaps that leave the count positive never reach the native unmap. */
  lemma {:induction false} UnmapWhilePositive(c: int, k: nat)
    requires k < c
    ensures UnmapTimes(State(c, true), k) == (State(c - k, true), 0)
    decreases k
  {
    if k > 0 {
      UnmapWhilePositive(c - 1, k - 1);
    }
  }

  /** `k` nested map/unmap pairs on an unmapped heap: one native map on the first call, no native
      unmap until the last matching unmap, which issues exactly one and restores the unmapped state. */
  lemma NestedMapping(k: nat)
    requires k > 0
    ensures MapTimes(Unmapped, k) == (State(k, true), 1)
    ensures forall j :: 0 <= j < k ==> UnmapTimes(State(k, true), j) == (State(k - j, true), 0)
    ensures UnmapTimes(State(k, true), k) == (Unmapped, 1)
  {
    MapWhileMapped(1, k - 1);
    forall j | 0 <= j < k
      ensures UnmapTimes(State(k, true), j) == (State(k - j, true), 0)
    {
      UnmapWhilePositive(k, j);
    }
    UnmapLast(k);
  }

  lemma {:induction false} UnmapLast(k: nat)
    requires k > 0
    ensures UnmapTimes(State(k, true), k) == (Unmapped, 1)
  {
    if k == 1 {
    } else {
      UnmapLast(k - 1);
      UnmapSplit(State(k, true), 1, k - 1);
    }
  }

  /** Unmapping `a + b` times is unmapping `a` times and then `b` times. */
  lemma {:induction false} UnmapSplit(s: State, a: nat, b: nat)
    ensures UnmapTimes(s, a + b).0 == UnmapTimes(UnmapTimes(s, a).0, b).0
    ensures UnmapTimes(s, a + b).1 == UnmapTimes(s, a).1 + UnmapTimes(UnmapTimes(s, a).0, b).1
    decreases a
  {
    if a > 0 {
      UnmapSplit(Unmap(s).0, a - 1, b);
    }
  }
}

=== FILE: memory_type.dfy ===
/** The usage/occupancy tag of a block (MemoryType.java) and its conflict relation, which decides
    when buffer/image granularity padding is needed between neighbours. */
module MemoryTypes {

  datatype MemoryType = FREE | IMAGE | BUFFER | UNKNOWN

  /** The two usage classes a resource can request memory for. */
  predicate IsUsage(t: MemoryType) {
    t == IMAGE || t == BUFFER
  }

  /** `this.conflicts(neighbor)`. */
  predicate Conflicts(t: MemoryType, neighbor: MemoryType) {
    if t == UNKNOWN || neighbor == UNKNOWN then true
    else if t == neighbor then false
    else t != FREE && neighbor != FREE
  }

  /** The relation, stated as a table: UNKNOWN conflicts with everything, FREE with nothing else,
      and IMAGE and BUFFER only with each other. */
  lemma ConflictTable()
    ensures forall t :: Conflicts(UNKNOWN, t) && Conflicts(t, UNKNOWN)
    ensures forall t :: t != UNKNOWN ==> !Conflicts(t, t)
    ensures forall t :: t != UNKNOWN ==> !Conflicts(FREE, t) && !Conflicts(t, FREE)
    ensures Conflicts(IMAGE, BUFFER) && Conflicts(BUFFER, IMAGE)
  {
  }

  lemma ConflictsSymmetric(a: MemoryType, b: MemoryType)
    ensures Conflicts(a, b) == Conflicts(b, a)
  {
  }

  /** Two neighbours conflict exactly when one is UNKNOWN or they are distinct usage classes. */
  lemma ConflictsMeaning(a: MemoryType, b: MemoryType)
    ensures Conflicts(a, b) <==> a == UNKNOWN || b == UNKNOWN || (IsUsage(a) && IsUsage(b) && a != b)
  {
  }
}

=== FILE: slab.dfy ===
/** The slab heap (SlabMemoryAllocator.java): one native memory object pre-partitioned into fixed
    size classes laid out contiguously; allocation is first-fit over the classes, trying only the
    first FREE slot of each class, and `free` is constant time. A block is identified by the index
    of its class and of its slot. */
module Slab {
  import opened Wrappers
  import opened MemoryTypes
  import opened Alignment
  import Mapping

  /** `SlabSizeInfo`: slot size and slot count of one size class. */
  datatype SizeInfo = SizeInfo(size: nat, count: nat)

  /** `SlabMemoryBlock`: a slot's fixed range, its tag and its aligned offset. */
  datatype Slot = Slot(offset: nat, size: nat, tag: MemoryType, alignedOffset: nat)

  /** `SlabList`: the slot size of a class and its slots. */
  datatype SizeClass = SizeClass(size: nat, slots: seq<Slot>)

  datatype Heap = Heap(handle: nat, typeIndex: nat, size: nat, lists: seq<SizeClass>, mapping: Mapping.State)

  /** `getSize()`: bytes from the aligned offset to the end of the slot. */
  function UsableSize(s: Slot): int {
    s.offset + s.size - s.alignedOffset
  }

  /** Where class `i` starts: the sum of `size * count` over the classes before it. */
  function Base(infos: seq<SizeInfo>, i: nat): nat
    requires i <= |infos|
    decreases i
  {
    if i == 0 then 0 else Base(infos, i - 1) + infos[i - 1].size * infos[i - 1].count
  }

  /** The size of the native allocation: the sum of `size * count` over all classes. */
  function TotalSize(infos: seq<SizeInfo>): nat {
    Base(infos, |infos|)
  }

  /** The constructor's layout loop from class `i` on, with the running offset `offset`: each class
      gets `count` FREE slots of its size, one after the other. */
  function Classes(infos: seq<SizeInfo>, i: nat, offset: nat): (r: seq<SizeClass>)
    requires i <= |infos|
    decreases |infos| - i
    ensures |r| == |infos| - i
    ensures forall k :: 0 <= k < |r| ==> r[k].size == infos[i + k].size && |r[k].slots| == infos[i + k].count
    ensures forall k, j :: 0 <= k < |r| && 0 <= j < |r[k].slots| ==>
      && r[k].slots[j].offset + Base(infos, i) == offset + Base(infos, i + k) + infos[i + k].size * j
      && r[k].slots[j].size == infos[i + k].size
      && r[k].slots[j].tag == FREE
      && r[k].slots[j].alignedOffset == r[k].slots[j].offset
  {
    if i == |infos| then []
    else
      var info := infos[i];
      var slots := seq(info.count, j requires 0 <= j < info.count => Slot(offset + info.size * j, info.size, FREE, offset + info.size * j));
      var rest := Classes(infos, i + 1, offset + info.count * info.size);
      assert info.count * info.size == info.size * info.count;
      [SizeClass(info.size, slots)] + rest
  }

  /** The constructor: total size `sum(size * count)`, and slot `j` of class `i` at
      `Base(infos, i) + size_i * j`, FREE and unaligned. */
  function Init(handle: nat, typeIndex: nat, infos: seq<SizeInfo>): (h: Heap)
    ensures h.size == TotalSize(infos)
    ensures |h.lists| == |infos|
    ensures forall i :: 0 <= i < |infos| ==> h.lists[i].size == infos[i].size && |h.lists[i].slots| == infos[i].count
    ensures forall i, j :: 0 <= i < |infos| && 0 <= j < infos[i].count ==>
      h.lists[i].slots[j] == Slot(Base(infos, i) + infos[i].size * j, infos[i].size, FREE, Base(infos, i) + infos[i].size * j)
  {
    Heap(handle, typeIndex, TotalSize(infos), Classes(infos, 0, 0), Mapping.Unmapped)
  }

  predicate ValidSlot(lists: seq<SizeClass>, i: int, j: int) {
    0 <= i < |lists| && 0 <= j < |lists[i].slots|
  }

  /** Slot `(i, j)` comes before slot `(i2, j2)` in layout order. */
  predicate Before(i: nat, j: nat, i2: nat, j2: nat) {
    i < i2 || (i == i2 && j < j2)
  }

  lemma {:induction false} BaseMonotone(infos: seq<SizeInfo>, i: nat, k: nat)
    requires i <= k <= |infos|
    ensures Base(infos, i) <= Base(infos, k)
    decreases k
  {
    if i < k {
      BaseMonotone(infos, i, k - 1);
    }
  }

  lemma MulMonotone(s: nat, a: nat, b: nat)
    requires a <= b
    ensures s * a <= s * b
  {
    assert s * b == s * a + s * (b - a);
  }

  /** The ranges of `lists` are those the constructor lays out for `infos`. */
  ghost predicate LaidOut(infos: seq<SizeInfo>, lists: seq<SizeClass>) {
    && |lists| == |infos|
    && (forall i :: 0 <= i < |infos| ==> |lists[i].slots| == infos[i].count)
    && (forall i, j :: 0 <= i < |infos| && 0 <= j < |lists[i].slots| ==>
          lists[i].slots[j].offset == Base(infos, i) + infos[i].size * j && lists[i].slots[j].size == infos[i].size)
  }

  lemma InitLaidOut(handle: nat, typeIndex: nat, infos: seq<SizeInfo>)
    ensures LaidOut(infos, Init(handle, typeIndex, infos).lists)
  {
  }

  /** A slot ends no later than where the next class starts. */
  lemma SlotEnd(infos: seq<SizeInfo>, lists: seq<SizeClass>, i: nat, j: nat)
    requires LaidOut(infos, lists) && ValidSlot(lists, i, j)
    ensures lists[i].slots[j].offset + lists[i].slots[j].size <= Base(infos, i + 1)
  {
    var s := infos[i].size;
    MulMonotone(s, j + 1, infos[i].count);
    assert s * (j + 1) == s * j + s;
    assert s * infos[i].count == infos[i].size * infos[i].count;
  }

  /** Laid-out slots lie inside the native allocation `[0, TotalSize)`. */
  lemma SlotInside(infos: seq<SizeInfo>, lists: seq<SizeClass>, i: nat, j: nat)
    requires LaidOut(infos, lists) && ValidSlot(lists, i, j)
    ensures lists[i].slots[j].offset + lists[i].slots[j].size <= TotalSize(infos)
  {
    SlotEnd(infos, lists, i, j);
    BaseMonotone(infos, i + 1, |infos|);
  }

  /** A laid-out slot ends before any later slot starts. */
  lemma SlotsOrdered(infos: seq<SizeInfo>, lists: seq<SizeClass>, i: nat, j: nat, i2: nat, j2: nat)
    requires LaidOut(infos, lists) && ValidSlot(lists, i, j) && ValidSlot(lists, i2, j2) && Before(i, j, i2, j2)
    ensures lists[i].slots[j].offset + lists[i].slots[j].size <= lists[i2].slots[j2].offset
  {
    if i < i2 {
      SlotEnd(infos, lists, i, j);
      BaseMonotone(infos, i + 1, i2);
    } else {
      var s := infos[i].size;
      MulMonotone(s, j + 1, j2);
      assert s * (j + 1) == s * j + s;
    }
  }

  /** The slots of a fresh heap are pairwise disjoint, in layout order, and inside the native
      allocation. */
  lemma LayoutDisjoint(handle: nat, typeIndex: nat, infos: seq<SizeInfo>)
    ensures var lists := Init(handle, typeIndex, infos).lists;
      && (forall i, j :: ValidSlot(lists, i, j) ==>
            lists[i].slots[j].offset + lists[i].slots[j].size <= TotalSize(infos))
      && (forall i, j, i2, j2 :: ValidSlot(lists, i, j) && ValidSlot(lists, i2, j2) && Before(i, j, i2, j2) ==>
            lists[i].slots[j].offset + lists[i].slots[j].size <= lists[i2].slots[j2].offset)
  {
    var lists := Init(handle, typeIndex, infos).lists;
    InitLaidOut(handle, typeIndex, infos);
    forall i, j | ValidSlot(lists, i, j)
      ensures lists[i].slots[j].offset + lists[i].slots[j].size <= TotalSize(infos)
    {
      SlotInside(infos, lists, i, j);
    }
    forall i, j, i2, j2 | ValidSlot(lists, i, j) && ValidSlot(lists, i2, j2) && Before(i, j, i2, j2)
      ensures lists[i].slots[j].offset + lists[i].slots[j].size <= lists[i2].slots[j2].offset
    {
      SlotsOrdered(infos, lists, i, j, i2, j2);
    }
  }

  /** Index of the first FREE slot (`|slots|` when there is none). */
  function FirstFree(slots: seq<Slot>): (j: nat)
    ensures j <= |slots|
    ensures forall k :: 0 <= k < j ==> slots[k].tag != FREE
    ensures j < |slots| ==> slots[j].tag == FREE
  {
    if slots == [] then 0
    else if slots[0].tag == FREE then 0
    else 1 + FirstFree(slots[1..])
  }

  /** The class serves the request: its slots are large enough, and its first FREE slot still
      holds the request once aligned. */
  predicate Yields(c: SizeClass, req: nat, alignment: Pos) {
    var j := FirstFree(c.slots);
    && c.size >= req
    && j < |c.slots|
    && c.slots[j].offset + c.slots[j].size - AlignUp(c.slots[j].offset, alignment) >= req
  }

  /** Same classes, same slots, same ranges: only tags and aligned offsets may differ. */
  ghost predicate SameLayout(a: seq<SizeClass>, b: seq<SizeClass>) {
    && |a| == |b|
    && (forall i :: 0 <= i < |a| ==> a[i].size == b[i].size && |a[i].slots| == |b[i].slots|)
    && (forall i, j :: ValidSlot(a, i, j) ==>
          a[i].slots[j].offset == b[i].slots[j].offset && a[i].slots[j].size == b[i].slots[j].size)
  }

  function UpdateSlot(lists: seq<SizeClass>, i: nat, j: nat, s: Slot): seq<SizeClass>
    requires ValidSlot(lists, i, j)
  {
    lists[i := lists[i].(slots := lists[i].slots[j := s])]
  }

  /** The malloc loop from class `i` on: skip classes whose slots are smaller than the request;
      in a class, align the first FREE slot and claim it if it still holds the request, otherwise
      give up on the class (`break`) and go on to the next one. The aligned offset written into
      a slot that then turns out too small stays written. */
  function MallocFrom(lists: seq<SizeClass>, i: nat, tag: MemoryType, req: nat, alignment: Pos): (r: (seq<SizeClass>, Option<(nat, nat)>))
    requires i <= |lists|
    decreases |lists| - i
    ensures SameLayout(lists, r.0)
    ensures forall k :: 0 <= k < i ==> r.0[k] == lists[k]
    ensures r.1.Some? ==> i <= r.1.value.0 && ValidSlot(lists, r.1.value.0, r.1.value.1)
  {
    if i == |lists| then (lists, None)
    else if lists[i].size < req then MallocFrom(lists, i + 1, tag, req, alignment)
    else
      var j := FirstFree(lists[i].slots);
      if j == |lists[i].slots| then MallocFrom(lists, i + 1, tag, req, alignment)
      else
        var slot := lists[i].slots[j];
        var aligned := slot.(alignedOffset := AlignUp(slot.offset, alignment));
        if UsableSize(aligned) >= req then (UpdateSlot(lists, i, j, aligned.(tag := tag)), Some((i, j)))
        else MallocFrom(UpdateSlot(lists, i, j, aligned), i + 1, tag, req, alignment)
  }

  /** The classes as the loop leaves them after passing over class `i` without claiming a slot:
      the first FREE slot, if the class was looked at, keeps the aligned offset just computed. */
  function Passed(lists: seq<SizeClass>, i: nat, req: nat, alignment: Pos): seq<SizeClass>
    requires i < |lists|
  {
    var j := FirstFree(lists[i].slots);
    if lists[i].size < req || j == |lists[i].slots| then lists
    else
      var slot := lists[i].slots[j];
      UpdateSlot(lists, i, j, slot.(alignedOffset := AlignUp(slot.offset, alignment)))
  }

  /** One turn of the loop: a class that does not yield is passed over, one that yields is claimed. */
  lemma MallocFromStep(lists: seq<SizeClass>, i: nat, tag: MemoryType, req: nat, alignment: Pos)
    requires i < |lists|
    ensures var next := Passed(lists, i, req, alignment);
      && |next| == |lists|
      && (forall k :: i < k < |lists| ==> next[k] == lists[k])
      && (!Yields(lists[i], req, alignment) ==> MallocFrom(lists, i, tag, req, alignment) == MallocFrom(next, i + 1, tag, req, alignment))
      && (Yields(lists[i], req, alignment) ==>
            var j := FirstFree(lists[i].slots);
            var slot := lists[i].slots[j];
            MallocFrom(lists, i, tag, req, alignment)
              == (UpdateSlot(lists, i, j, slot.(tag := tag, alignedOffset := AlignUp(slot.offset, alignment))), Some((i, j))))
  {
  }

  /** Passing over a class keeps every slot's range and tag; an aligned offset it changes becomes
      `AlignUp` of the slot's start. */
  lemma PassedSlots(lists: seq<SizeClass>, i: nat, req: nat, alignment: Pos)
    requires i < |lists|
    ensures var next := Passed(lists, i, req, alignment);
      forall k, j :: ValidSlot(lists, k, j) ==>
        && ValidSlot(next, k, j)
        && next[k].slots[j].tag == lists[k].slots[j].tag
        && (next[k].slots[j].alignedOffset == lists[k].slots[j].alignedOffset
            || next[k].slots[j].alignedOffset == AlignUp(lists[k].slots[j].offset, alignment))
  {
  }

  /** The loop fails exactly when no class from `i` on yields. */
  lemma {:induction false} MallocFromFails(lists: seq<SizeClass>, i: nat, tag: MemoryType, req: nat, alignment: Pos)
    requires i <= |lists|
    decreases |lists| - i
    ensures MallocFrom(lists, i, tag, req, alignment).1.None? <==> forall k :: i <= k < |lists| ==> !Yields(lists[k], req, alignment)
  {
    if i < |lists| {
      MallocFromStep(lists, i, tag, req, alignment);
      var next := Passed(lists, i, req, alignment);
      MallocFromFails(next, i + 1, tag, req, alignment);
    }
  }

  /** On success the loop has claimed the first FREE slot of the first class that yields,
      tagging it and aligning its offset. */
  lemma {:induction false} MallocFromChoice(lists: seq<SizeClass>, i: nat, tag: MemoryType, req: nat, alignment: Pos)
    requires i <= |lists|
    requires MallocFrom(lists, i, tag, req, alignment).1.Some?
    decreases |lists| - i
    ensures var r := MallocFrom(lists, i, tag, req, alignment);
      var (k, j) := r.1.value;
      && Yields(lists[k], req, alignment)
      && (forall k2 :: i <= k2 < k ==> !Yields(lists[k2], req, alignment))
      && j == FirstFree(lists[k].slots)
      && r.0[k].slots[j] == lists[k].slots[j].(tag := tag, alignedOffset := AlignUp(lists[k].slots[j].offset, alignment))
  {
    if i < |lists| {
      MallocFromStep(lists, i, tag, req, alignment);
      if !Yields(lists[i], req, alignment) {
        MallocFromChoice(Passed(lists, i, req, alignment), i + 1, tag, req, alignment);
      }
    }
  }

  /** The loop changes no tag but the claimed slot's. */
  lemma {:induction false} MallocFromTags(lists: seq<SizeClass>, i: nat, tag: MemoryType, req: nat, alignment: Pos)
    requires i <= |lists|
    decreases |lists| - i
    ensures var r := MallocFrom(lists, i, tag, req, alignment);
      forall k, j :: ValidSlot(lists, k, j) && r.1 != Some((k, j)) ==> r.0[k].slots[j].tag == lists[k].slots[j].tag
  {
    if i < |lists| {
      MallocFromStep(lists, i, tag, req, alignment);
      if !Yields(lists[i], req, alignment) {
        PassedSlots(lists, i, req, alignment);
        MallocFromTags(Passed(lists, i, req, alignment), i + 1, tag, req, alignment);
      }
    }
  }

  /** `malloc(size, alignment, type)`: first-fit over the classes; `OutOfMemory` when no class
      yields. The block is `(class, slot)`. */
  function Malloc(h: Heap, tag: MemoryType, req: nat, alignment: Pos): (r: (Heap, Result<(nat, nat)>))
    ensures r.0 == h.(lists := r.0.lists)
    ensures SameLayout(h.lists, r.0.lists)
    ensures r.1.Failure? ==> r.1.error == OutOfMemory
    ensures r.1.Success? ==> ValidSlot(h.lists, r.1.value.0, r.1.value.1)
  {
    var (lists, found) := MallocFrom(h.lists, 0, tag, req, alignment);
    (h.(lists := lists), if found.Some? then Success(found.value) else Failure(OutOfMemory))
  }

  /** What a successful malloc hands out: a slot that was the first FREE one of its class, now
      tagged, whose aligned offset is a multiple of the alignment and still leaves `req` bytes;
      and it succeeds exactly when some class yields. */
  lemma MallocSpec(h: Heap, tag: MemoryType, req: nat, alignment: Pos)
    ensures var (h1, res) := Malloc(h, tag, req, alignment);
      && (res.Success? <==> exists k :: 0 <= k < |h.lists| && Yields(h.lists[k], req, alignment))
      && (res.Success? ==>
            var (i, j) := res.value;
            var slot := h1.lists[i].slots[j];
            && h.lists[i].slots[j].tag == FREE
            && (forall j2 :: 0 <= j2 < j ==> h.lists[i].slots[j2].tag != FREE)
            && (forall i2 :: 0 <= i2 < i ==> !Yields(h.lists[i2], req, alignment))
            && slot.tag == tag
            && slot.alignedOffset % alignment == 0
            && h.lists[i].slots[j].offset <= slot.alignedOffset
            && UsableSize(slot) >= req)
      && (forall i, j :: ValidSlot(h.lists, i, j) && res != Success((i, j)) ==>
            h1.lists[i].slots[j].tag == h.lists[i].slots[j].tag)
  {
    MallocFromFails(h.lists, 0, tag, req, alignment);
    MallocFromTags(h.lists, 0, tag, req, alignment);
    if MallocFrom(h.lists, 0, tag, req, alignment).1.Some? {
      MallocFromChoice(h.lists, 0, tag, req, alignment);
    }
  }

  /** `SlabMemoryBlock.free()`: the slot becomes FREE again and its aligned offset is reset;
      nothing else changes. */
  function Free(h: Heap, i: nat, j: nat): (r: Heap)
    requires ValidSlot(h.lists, i, j)
    ensures r == h.(lists := r.lists)
    ensures SameLayout(h.lists, r.lists)
    ensures r.lists[i].slots[j].tag == FREE
    ensures r.lists[i].slots[j].alignedOffset == r.lists[i].slots[j].offset
    ensures forall k, l :: ValidSlot(h.lists, k, l) && (k, l) != (i, j) ==> r.lists[k].slots[l] == h.lists[k].slots[l]
  {
    var slot := h.lists[i].slots[j];
    h.(lists := UpdateSlot(h.lists, i, j, slot.(alignedOffset := slot.offset, tag := FREE)))
  }

  /** `isEmpty()`: no slot is in use. */
  predicate IsEmpty(h: Heap) {
    forall i, j | 0 <= i < |h.lists| && 0 <= j < |h.lists[i].slots| :: h.lists[i].slots[j].tag == FREE
  }

  /** Both heaps have the same slots with the same tags: the same blocks are in use. */
  predicate SameTags(a: Heap, b: Heap) {
    && |a.lists| == |b.lists|
    && (forall i :: 0 <= i < |a.lists| ==> |a.lists[i].slots| == |b.lists[i].slots|)
    && (forall i, j | 0 <= i < |a.lists| && 0 <= j < |a.lists[i].slots| ::
          a.lists[i].slots[j].tag == b.lists[i].slots[j].tag)
  }

  /** Every slot's aligned offset lies at or past its start. */
  ghost predicate SlotsAligned(h: Heap) {
    forall i, j :: ValidSlot(h.lists, i, j) ==> h.lists[i].slots[j].offset <= h.lists[i].slots[j].alignedOffset
  }

  /** The constructor builds an empty heap whose slots all start aligned. */
  lemma InitEmpty(handle: nat, typeIndex: nat, infos: seq<SizeInfo>)
    ensures IsEmpty(Init(handle, typeIndex, infos))
    ensures SlotsAligned(Init(handle, typeIndex, infos))
  {
  }

  /** Malloc and free keep every slot's range where the constructor laid it out, so the slots
      stay disjoint and inside the native allocation for the life of the heap, and they keep
      aligned offsets at or past the slot start. */
  lemma OperationsKeepLayout(infos: seq<SizeInfo>, h: Heap, tag: MemoryType, req: nat, alignment: Pos, i: nat, j: nat)
    requires LaidOut(infos, h.lists) && SlotsAligned(h)
    ensures LaidOut(infos, Malloc(h, tag, req, alignment).0.lists) && SlotsAligned(Malloc(h, tag, req, alignment).0)
    ensures ValidSlot(h.lists, i, j) ==> LaidOut(infos, Free(h, i, j).lists) && SlotsAligned(Free(h, i, j))
  {
    MallocFromAligns(h.lists, 0, tag, req, alignment);
  }

  /** Every aligned offset the loop writes is `AlignUp` of the slot's start. */
  lemma {:induction false} MallocFromAligns(lists: seq<SizeClass>, i: nat, tag: MemoryType, req: nat, alignment: Pos)
    requires i <= |lists|
    decreases |lists| - i
    ensures var r := MallocFrom(lists, i, tag, req, alignment).0;
      forall k, j :: ValidSlot(lists, k, j) ==>
        r[k].slots[j].alignedOffset == lists[k].slots[j].alignedOffset
        || r[k].slots[j].alignedOffset == AlignUp(lists[k].slots[j].offset, alignment)
  {
    if i < |lists| {
      MallocFromStep(lists, i, tag, req, alignment);
      if !Yields(lists[i], req, alignment) {
        PassedSlots(lists, i, req, alignment);
        MallocFromAligns(Passed(lists, i, req, alignment), i + 1, tag, req, alignment);
      }
    }
  }

  /** Freeing the slot a malloc handed out gives back every tag as it was before the malloc;
      in particular an empty heap is empty again. */
  lemma MallocFreeRestores(h: Heap, tag: MemoryType, req: nat, alignment: Pos)
    requires Malloc(h, tag, req, alignment).1.Success?
    ensures var (h1, res) := Malloc(h, tag, req, alignment);
      var h2 := Free(h1, res.value.0, res.value.1);
      && SameLayout(h.lists, h2.lists)
      && (forall i, j :: ValidSlot(h.lists, i, j) ==> h2.lists[i].slots[j].tag == h.lists[i].slots[j].tag)
      && (IsEmpty(h) ==> IsEmpty(h2))
  {
    MallocSpec(h, tag, req, alignment);
  }

  /** `map()` on a block of this heap: the whole heap is mapped through its cached mapping (the
      block's own window is a slice of it); nothing but the mapping changes. */
  function Map(h: Heap): (r: (Heap, bool))
    ensures r.0 == h.(mapping := r.0.mapping)
    ensures r.0.mapping.mapped && r.0.mapping.count == h.mapping.count + 1
    ensures r.1 <==> !h.mapping.mapped
  {
    var (m, native) := Mapping.Map(h.mapping);
    (h.(mapping := m), native)
  }

  /** `unmap()` on a block of this heap: the native unmap happens when the last outstanding map
      is undone; nothing but the mapping changes. */
  function Unmap(h: Heap): (r: (Heap, bool))
    ensures r.0 == h.(mapping := r.0.mapping)
    ensures r.0.mapping.count == h.mapping.count - 1
    ensures r.1 <==> h.mapping.count == 1
  {
    var (m, native) := Mapping.Unmap(h.mapping);
    (h.(mapping := m), native)
  }

  /** Unmapping a block right after mapping it restores the heap, and issues the native unmap
      exactly when the map issued the native map. */
  lemma MapUnmap(h: Heap)
    requires Mapping.Consistent(h.mapping)
    ensures Unmap(Map(h).0) == (h, Map(h).1)
  {
    Mapping.MapThenUnmap(h.mapping);
  }
}

=== FILE: stack.dfy ===
/** The stack heap (StackMemoryAllocator.java): allocation moves a pointer DOWN from the top of
    the memory object, rounding it to the alignment (and to the granularity on a usage
    conflict); `push` saves the pointer in one of eight frame slots and `pop` restores it, or
    releases the memory object when no frame is left. */
module Stack {
  import opened Wrappers
  import opened MemoryTypes
  import opened Alignment
  import Mapping

  /** `MAX_STACK_FRAMES`. */
  const MaxStackFrames: nat := 8

  /** `frames` is the fixed array of saved pointers; `pointer` is a Java `long` and may go below
      zero, since allocation does not check for underflow. */
  datatype Heap = Heap(
    handle: nat, typeIndex: nat, size: nat, pageSize: Pos,
    frames: seq<int>, frameIndex: nat, pointer: int, lastType: MemoryType, mapping: Mapping.State)

  /** `StackMemoryBlock`: the block's offset and its (unpadded) size. */
  datatype Block = Block(offset: int, size: nat)

  /** The result of `pop()`: the heap with the saved pointer restored (it returns `this`), the
      memory object released (it returns `null`), or the array access fault that follows an
      overflowing `push`. */
  datatype Popped = Restored(heap: Heap) | Released | Fault(heap: Heap, error: Error)

  /** The frame array has its fixed length. */
  predicate Valid(h: Heap) {
    |h.frames| == MaxStackFrames
  }

  /** The constructor: pointer at the top, no frame saved, a zeroed frame array. */
  function Init(handle: nat, typeIndex: nat, size: nat, pageSize: Pos): (h: Heap)
    ensures Valid(h)
    ensures h.pointer == h.size == size && h.frameIndex == 0 && h.lastType == FREE
    ensures forall i :: 0 <= i < |h.frames| ==> h.frames[i] == 0
  {
    Heap(handle, typeIndex, size, pageSize, seq(MaxStackFrames, _ => 0), 0, size, FREE, Mapping.Unmapped)
  }

  /** `isEmpty()`: the pointer is back at the top. */
  predicate IsEmpty(h: Heap) {
    h.pointer == h.size
  }

  /** `mallocImpl` and `malloc`: the block ends at or below the old pointer and starts at the new
      one, which is a multiple of the alignment, or of the granularity when the previous usage
      conflicts. The pointer is masked with `& ~(b - 1)`, which for the power-of-two values
      Vulkan hands out is rounding down to a multiple of `b`. */
  function Malloc(h: Heap, tag: MemoryType, req: nat, alignment: Pos): (r: (Heap, Block))
    ensures r.1.offset + r.1.size <= h.pointer
    ensures h.pointer - req - alignment - (if Conflicts(h.lastType, tag) then h.pageSize else 0) < r.1.offset
    ensures !Conflicts(h.lastType, tag) ==> h.pointer - req - alignment < r.1.offset <= h.pointer - req
    ensures Conflicts(h.lastType, tag) ==>
      RoundDown(h.pointer - req, alignment) - h.pageSize < r.1.offset <= RoundDown(h.pointer - req, alignment)
    ensures r.1.size == req
    ensures !Conflicts(h.lastType, tag) ==> r.1.offset % alignment == 0
    ensures Conflicts(h.lastType, tag) ==> r.1.offset % h.pageSize == 0
    ensures h.pageSize % alignment == 0 || alignment % h.pageSize == 0 ==> r.1.offset % alignment == 0
    ensures r.0 == h.(pointer := r.1.offset, lastType := tag)
  {
    var aligned := RoundDown(h.pointer - req, alignment);
    var p := if Conflicts(h.lastType, tag) then RoundDown(aligned, h.pageSize) else aligned;
    assert h.pageSize % alignment == 0 || alignment % h.pageSize == 0 ==> p % alignment == 0 by {
      if Conflicts(h.lastType, tag) && (h.pageSize % alignment == 0 || alignment % h.pageSize == 0) {
        MaskKeepsAlignment(aligned, alignment, h.pageSize);
      }
    }
    (h.(pointer := p, lastType := tag), Block(p, req))
  }

  /** The second mask keeps the first one's alignment when one of the two values divides the
      other, as any two powers of two do. */
  lemma MaskKeepsAlignment(aligned: int, alignment: Pos, pageSize: Pos)
    requires aligned % alignment == 0
    requires pageSize % alignment == 0 || alignment % pageSize == 0
    ensures RoundDown(aligned, pageSize) % alignment == 0
  {
    if pageSize % alignment == 0 {
      MultipleTransitive(RoundDown(aligned, pageSize), alignment, pageSize);
    } else {
      MultipleTransitive(aligned, pageSize, alignment);
      RoundDownOfMultiple(aligned, pageSize);
    }
  }

  /** `push()`: save the pointer in the next frame slot. The index is incremented before the
      array store, so a ninth push faults with the index already past the array. */
  function Push(h: Heap): (r: (Heap, Result<()>))
    requires Valid(h)
    ensures Valid(r.0)
    ensures r.0.frameIndex == h.frameIndex + 1
    ensures r.0.pointer == h.pointer
    ensures r.1.Failure? <==> h.frameIndex >= MaxStackFrames
    ensures r.1.Failure? ==> r.1.error == IndexOutOfBounds && r.0.frames == h.frames
    ensures r.1.Success? ==> r.0.frames == h.frames[h.frameIndex := h.pointer]
  {
    if h.frameIndex < MaxStackFrames then
      (h.(frames := h.frames[h.frameIndex := h.pointer], frameIndex := h.frameIndex + 1), Success(()))
    else
      (h.(frameIndex := h.frameIndex + 1), Failure(IndexOutOfBounds))
  }

  /** `pop()` (and `close()`): with no frame left the memory object is released; otherwise the
      index is decremented and the pointer saved there restored, which faults when the index is
      still past the array. */
  function Pop(h: Heap): (r: Popped)
    requires Valid(h)
    ensures r.Released? <==> h.frameIndex == 0
    ensures r.Restored? <==> 0 < h.frameIndex <= MaxStackFrames
    ensures r.Restored? ==> r.heap == h.(frameIndex := h.frameIndex - 1, pointer := h.frames[h.frameIndex - 1])
    ensures r.Fault? ==> r.error == IndexOutOfBounds && r.heap == h.(frameIndex := h.frameIndex - 1)
  {
    if h.frameIndex == 0 then Released
    else if h.frameIndex - 1 < MaxStackFrames then
      Restored(h.(frameIndex := h.frameIndex - 1, pointer := h.frames[h.frameIndex - 1]))
    else
      Fault(h.(frameIndex := h.frameIndex - 1), IndexOutOfBounds)
  }

  /** One allocation request: usage, size and alignment. */
  datatype Request = Request(tag: MemoryType, size: nat, alignment: Pos)

  /** A run of allocations, in order. */
  function MallocAll(h: Heap, reqs: seq<Request>): (r: Heap)
    decreases |reqs|
    ensures r.frames == h.frames && r.frameIndex == h.frameIndex && r.size == h.size
    ensures r.pointer <= h.pointer
  {
    if reqs == [] then h
    else MallocAll(Malloc(h, reqs[0].tag, reqs[0].size, reqs[0].alignment).0, reqs[1..])
  }

  /** Popping after a push restores the pointer saved by the push, whatever was allocated in
      between: the frame's allocations are given back at once. */
  lemma PushMallocPop(h: Heap, reqs: seq<Request>)
    requires Valid(h) && h.frameIndex < MaxStackFrames
    ensures var pushed := Push(h).0;
      var popped := Pop(MallocAll(pushed, reqs));
      && popped.Restored?
      && popped.heap.pointer == h.pointer
      && popped.heap.frameIndex == h.frameIndex
      && popped.heap.frames == h.frames[h.frameIndex := h.pointer]
  {
  }

  /** Frames nest: after two pushes, the first pop restores the inner pointer and the second
      the outer one. */
  lemma FramesNest(h: Heap, outer: seq<Request>, inner: seq<Request>)
    requires Valid(h) && h.frameIndex + 2 <= MaxStackFrames
    ensures var h1 := MallocAll(Push(h).0, outer);
      var h2 := MallocAll(Push(h1).0, inner);
      var p1 := Pop(h2);
      && p1.Restored? && p1.heap.pointer == h1.pointer
      && Pop(p1.heap).Restored? && Pop(p1.heap).heap.pointer == h.pointer
  {
    var h1 := MallocAll(Push(h).0, outer);
    PushMallocPop(h1, inner);
  }

  /** A fresh heap is empty and holds no frame, so popping it releases the memory object; and
      the first allocation of a non-empty request makes it non-empty. */
  lemma FreshHeap(handle: nat, typeIndex: nat, size: nat, pageSize: Pos, tag: MemoryType, req: nat, alignment: Pos)
    ensures IsEmpty(Init(handle, typeIndex, size, pageSize))
    ensures Pop(Init(handle, typeIndex, size, pageSize)) == Released
    ensures req > 0 ==> !IsEmpty(Malloc(Init(handle, typeIndex, size, pageSize), tag, req, alignment).0)
  {
  }

  /** A ninth push faults and leaves the frame index at nine, so the next pop faults too. */
  lemma OverflowFaults(h: Heap)
    requires Valid(h) && h.frameIndex == MaxStackFrames
    ensures Push(h).1 == Failure(IndexOutOfBounds)
    ensures Push(h).0.frameIndex == MaxStackFrames + 1
    ensures Pop(Push(h).0).Fault?
  {
  }

  /** Blocks allocated one after the other never overlap: each lies wholly below the previous
      one. */
  lemma SuccessiveBlocksDisjoint(h: Heap, t1: MemoryType, n1: nat, a1: Pos, t2: MemoryType, n2: nat, a2: Pos)
    ensures var (h1, b1) := Malloc(h, t1, n1, a1);
      var b2 := Malloc(h1, t2, n2, a2).1;
      b2.offset + b2.size <= b1.offset
  {
  }

  /** Allocation never checks the pointer against the bottom of the memory object: a 32-byte
      request on a fresh 16-byte heap is handed offset -16. */
  lemma UnderflowExample()
    ensures Malloc(Init(0, 0, 16, 1), BUFFER, 32, 1).1 == Block(-16, 32)
  {
    var h := Init(0, 0, 16, 1);
    var r := RoundDown(-16, 1);
    assert r == -16;
  }

  /** Allocation as evidently intended: `OutOfMemory`, with the heap unchanged, when the rounded
      pointer would fall below the start of the memory object. */
  function MallocChecked(h: Heap, tag: MemoryType, req: nat, alignment: Pos): (r: (Heap, Result<Block>))
    ensures r.1.Failure? <==> Malloc(h, tag, req, alignment).1.offset < 0
    ensures r.1.Failure? ==> r.1.error == OutOfMemory && r.0 == h
    ensures r.1.Success? ==> (r.0, r.1.value) == Malloc(h, tag, req, alignment)
  {
    var (h1, b) := Malloc(h, tag, req, alignment);
    if b.offset < 0 then (h, Failure(OutOfMemory)) else (h1, Success(b))
  }

  /** The pointer and every saved frame lie between the start and the top of the memory object. */
  predicate InBounds(h: Heap) {
    && 0 <= h.pointer <= h.size
    && (forall i :: 0 <= i < |h.frames| ==> 0 <= h.frames[i] <= h.size)
  }

  /** With the check, every block lies inside the memory object, and the bounds survive
      allocation, push and pop. */
  lemma CheckedStaysInBounds(h: Heap, tag: MemoryType, req: nat, alignment: Pos)
    requires Valid(h) && InBounds(h)
    ensures var (h1, res) := MallocChecked(h, tag, req, alignment);
      && InBounds(h1)
      && (res.Success? ==> 0 <= res.value.offset && res.value.offset + res.value.size <= h.size)
    ensures InBounds(Push(h).0)
    ensures Pop(h).Restored? ==> InBounds(Pop(h).heap)
  {
  }

  /** A fresh heap is in bounds. */
  lemma InitInBounds(handle: nat, typeIndex: nat, size: nat, pageSize: Pos)
    ensures InBounds(Init(handle, typeIndex, size, pageSize))
  {
  }

  /** `map()` on a block of this heap: the whole heap is mapped through its cached mapping (the
      block's own window is a slice of it); nothing but the mapping changes. */
  function Map(h: Heap): (r: (Heap, bool))
    ensures r.0 == h.(mapping := r.0.mapping)
    ensures r.0.mapping.mapped && r.0.mapping.count == h.mapping.count + 1
    ensures r.1 <==> !h.mapping.mapped
  {
    var (m, native) := Mapping.Map(h.mapping);
    (h.(mapping := m), native)
  }

  /** `unmap()` on a block of this heap: the native unmap happens when the last outstanding map
      is undone; nothing but the mapping changes. */
  function Unmap(h: Heap): (r: (Heap, bool))
    ensures r.0 == h.(mapping := r.0.mapping)
    ensures r.0.mapping.count == h.mapping.count - 1
    ensures r.1 <==> h.mapping.count == 1
  {
    var (m, native) := Mapping.Unmap(h.mapping);
    (h.(mapping := m), native)
  }

  /** Unmapping a block right after mapping it restores the heap, and issues the native unmap
      exactly when the map issued the native map. */
  lemma MapUnmap(h: Heap)
    requires Mapping.Consistent(h.mapping)
    ensures Unmap(Map(h).0) == (h, Map(h).1)
  {
    Mapping.MapThenUnmap(h.mapping);
  }
}

=== FILE: unique.dfy ===
/** The unique heap (UniqueMemoryAllocator.java): every allocation is its own native memory
    object, recorded in a set of live blocks. Blocks are equal exactly when their native handles
    are, so the set is modelled as a map from handle to size. The handle of a new memory object
    comes from the driver and is a parameter here. */
module Unique {
  import opened Alignment

  datatype Heap = Heap(typeIndex: nat, allocations: map<nat, nat>)

  /** `UniqueMemoryBlock`: its own native handle and size; its offset is always 0. */
  datatype Block = Block(handle: nat, size: nat)

  function Init(typeIndex: nat): (h: Heap)
    ensures h.typeIndex == typeIndex && h.allocations == map[]
  {
    Heap(typeIndex, map[])
  }

  /** `malloc`: a new memory object of the request rounded up to its alignment, added to the set
      (a block equal to one already there is not added again). */
  function Malloc(h: Heap, req: nat, alignment: Pos, handle: nat): (r: (Heap, Block))
    ensures r.1.handle == handle
    ensures req <= r.1.size < req + alignment && r.1.size % alignment == 0
    ensures r.0.typeIndex == h.typeIndex
    ensures r.0.allocations.Keys == h.allocations.Keys + {handle}
    ensures handle !in h.allocations ==> r.0.allocations == h.allocations[handle := r.1.size]
    ensures handle in h.allocations ==> r.0 == h
  {
    var b := Block(handle, AlignUp(req, alignment));
    if handle in h.allocations then (h, b) else (h.(allocations := h.allocations[handle := b.size]), b)
  }

  /** `free()`: release every block's memory object and clear the set. The second component is
      the set of handles released. */
  function Free(h: Heap): (r: (Heap, set<nat>))
    ensures r.0 == Init(h.typeIndex)
    ensures forall k :: k in r.1 <==> k in h.allocations
  {
    (Init(h.typeIndex), h.allocations.Keys)
  }

  /** `isEmpty()`: the set is empty. */
  predicate IsEmpty(h: Heap) {
    |h.allocations| == 0
  }

  /** `UniqueMemoryBlock.free()` as written: the block's memory object is released, but the block
      stays in the heap's set. */
  function FreeBlock(h: Heap, b: Block): (r: (Heap, set<nat>))
    ensures r.0 == h && r.1 == {b.handle}
  {
    (h, {b.handle})
  }

  /** The handle a malloc adds is released by the next `free()`, together with the ones there
      before; a malloc always leaves the heap non-empty. */
  lemma MallocThenFree(h: Heap, req: nat, alignment: Pos, handle: nat)
    ensures Free(Malloc(h, req, alignment, handle).0).1 == Free(h).1 + {handle}
    ensures !IsEmpty(Malloc(h, req, alignment, handle).0)
  {
    var h1 := Malloc(h, req, alignment, handle).0;
    assert handle in h1.allocations;
  }

  /** A block freed on its own stays in the set, so the heap's `free()` releases its memory
      object a second time, and the heap never becomes empty again. */
  lemma DoubleRelease(h: Heap, req: nat, alignment: Pos, handle: nat)
    ensures var (h1, b) := Malloc(h, req, alignment, handle);
      var (h2, first) := FreeBlock(h1, b);
      var second := Free(h2).1;
      && handle in first && handle in second
      && !IsEmpty(h2)
  {
    var h1 := Malloc(h, req, alignment, handle).0;
    assert handle in h1.allocations;
  }

  /** Freeing a block as evidently intended: release its memory object and drop it from the set. */
  function FreeBlockChecked(h: Heap, b: Block): (r: (Heap, set<nat>))
    ensures r.1 == {b.handle}
    ensures r.0.typeIndex == h.typeIndex
    ensures r.0.allocations.Keys == h.allocations.Keys - {b.handle}
    ensures forall k :: k in r.0.allocations ==> r.0.allocations[k] == h.allocations[k]
  {
    (h.(allocations := h.allocations - {b.handle}), {b.handle})
  }

  /** With the corrected block free, malloc then free of the block gives back the heap as it
      was, and every memory object is released exactly once. */
  lemma CheckedReleasesOnce(h: Heap, req: nat, alignment: Pos, handle: nat)
    requires handle !in h.allocations
    ensures var (h1, b) := Malloc(h, req, alignment, handle);
      var (h2, first) := FreeBlockChecked(h1, b);
      && h2 == h
      && handle in first && handle !in Free(h2).1
  {
    var (h1, b) := Malloc(h, req, alignment, handle);
    assert h1.allocations - {handle} == h.allocations;
  }
}

=== FILE: wrappers.dfy ===
/** Optional values, the error kinds the allocators raise, and results that carry one or the other. */
module Wrappers {

  datatype Option<+T> = None | Some(value: T)

  /** The exceptions of the allocation layer: `OutOfMemoryError` from a heap that cannot serve a
      request, `UnsupportedOperationException` when no memory type matches, and the
      `ArrayIndexOutOfBoundsException` the stack allocator's frame array raises. */
  datatype Error = OutOfMemory | UnsupportedMemoryType | IndexOutOfBounds

  datatype Result<+T> = Success(value: T) | Failure(error: Error)
}
